=== FILE: README.md ===
# Two-pass assembler, modelled in Dafny

This project models `assembler.py`, a two-pass assembler for a small
register machine. It takes a source file given as a list of lines and
produces a `.vml` program, a list of integer words.

Each source line goes through four steps:

1. Its line terminator is dropped.
2. The `//` comment is cut.
3. The line is split at its last `:` into colon-separated label names and an instruction.
4. The instruction is split on whitespace into a mnemonic and its operands.

**Pass 1** folds over the lines and grows a word buffer (`compiled`), a label table and a relocation table, as follows:

- Every label name on a line is bound to the buffer length before that line, together with its 1-based line number. Digit-only names are skipped silently. Names that are not identifiers are errors. So is a second definition, which keeps the first binding.
- The mnemonic is looked up in the format table `INSNS`, ignoring case. An unknown mnemonic is an error, and so is a wrong operand count.
- For a known mnemonic, the opcode is appended, then each operand's encoder output in order:
  - `IMM` is an integer literal, or a label reference that records a relocation site and emits a `0` placeholder.
  - `REG` is `r0`..`r31` or an alias.
  - `DATA` is `n` zero words.
- The first refused operand is reported and ends the line.

After Pass 1, every label that no relocation names draws a warning. An error in Pass 1 stops the assembly.

**Pass 2** visits the relocation names in the order they were first referenced:

- It writes the label's offset into every site recorded for the name.
- A name without a label is an error, which stops the assembly again.

**Output.** The output file is named after the input: a trailing `.asm` becomes `.vml`, and any other name gets `.vml` appended. The file holds the word count on its first line and then one word per line.

Diagnostics are records of a severity, an optional line number and a message. The sticky `error` flag of the source is part of the state. Both dicts of the source are modelled as ordered maps (`Tables.OMap`), so the warnings and Pass 2 errors come out in Python's dict iteration order.

The passes work on preprocessed lines (`Preprocessor.Line`), and `Preprocessor.ParseAll` preprocesses a whole file. The source preprocesses each line inside its loop. Preprocessing reads nothing but the line itself, so doing it first gives the same result. `Assembler.Program` is the whole program from source lines to output file. It writes the corrected output text of the finding below, which is the source's text for every non-empty program whose register operands have no leading zero (see `Encoders.EncodeReg` under "Left out").

Modules, in dependency order:

| module | contents |
|---|---|
| `Wrappers` | `Option` and `Result` |
| `Text` | the Python string operations the source uses, for ASCII: `rstrip`, `partition`, `rpartition`, `strip`, `split`, `casefold`, `isidentifier` |
| `Numerals` | `int()` and `str()` on decimal numerals |
| `Tables` | insertion-ordered maps, `Label`, the relocation table |
| `Encoders` | `IMM`, `REG`, `DATA` and `REG_NAMES` |
| `Formats` | `INSNS` |
| `Preprocessor` | line preprocessing |
| `AsmState` | diagnostics, the assembler state and its invariant |
| `Pass1` | the label loop, instruction dispatch, the operand loop, the fold over lines, the unused-label check |
| `Pass2` | relocation patching and undefined-label errors |
| `Output` | the output name and text |
| `Assembler` | the two gates and the whole run |

## Model

| member | source | states |
|---|---|---|
| Text.StripNewlines | assembler.py:132 | `rstrip('\r\n')`: the result is a prefix of the line; everything cut is CR or LF; the result does not end in CR or LF |
| Text.StripComment | assembler.py:135 | the text before the first `//`: a prefix of the line, no `//` of the line starts inside it, and it is either the whole line or followed by `//` |
| Text.Strip | assembler.py:135 | `strip()`: the result neither starts nor ends with a blank, and a line with no blank at either end is unchanged |
| Text.StripSlice | assembler.py:138 | `strip()` is the slice of the text between its leading blanks and its trailing blanks |
| Text.RPartition | assembler.py:138 | `rpartition(':')`: the tail has no colon; with a colon, head, colon and tail rebuild the line; without one, the head is empty and the tail is the line |
| Text.Split | assembler.py:144 | `split(':')`: at least one piece, no piece holds the separator, and joining the pieces with it gives the input back |
| Text.SplitJoin | assembler.py:144 | splitting the join of separator-free pieces gives exactly those pieces |
| Text.SplitWhitespace | assembler.py:164 | `split()`: every token is non-empty and blank-free, and there are no tokens exactly when the text is all blanks |
| Text.SplitWhitespaceJoin | assembler.py:164 | splitting non-empty blank-free words joined by spaces gives the words back |
| Text.SplitWhitespaceAt | assembler.py:164 | for any text, a blank splits it in two: the words of the part before it, then the words of the part after it |
| Text.SplitWhitespaceWord | assembler.py:164 | a non-empty blank-free word splits into exactly itself |
| Text.Lower | assembler.py:170 | `casefold()` on ASCII: same length, every character lower-cased |
| Numerals.ParseInt | assembler.py:26 | `int(operand)`: defined exactly on digit strings with an optional leading `-`; the value is the numeral's value, negated after `-` |
| Numerals.IntToString | assembler.py:216 | `str(word)` parses back to the same integer, uses only digits and `-`, and is the canonical numeral of the magnitude, after a `-` for a negative word |
| Numerals.PrintedUnique | assembler.py:216 | that canonical form determines the text: any text of that form for `i` is `str(i)` |
| Numerals.NatToStringOfValue | assembler.py:216 | a numeral without a leading zero is the printed form of its own value |
| Tables.Put | assembler.py:161 | dict assignment: the map is updated; a new key goes last in the order and an existing key keeps its place |
| Tables.AddSite | assembler.py:31 | `relocs[name].append(site)`: `name` becomes a key, its site list gains `site` at the end, and every other name's sites are unchanged |
| Encoders.EncodeImm | assembler.py:24-32 | accepted iff the operand is an integer literal or an identifier; a literal yields exactly that integer and leaves the relocations alone; an identifier yields `[0]` and appends `ofs` to its own site list only; anything else is "expected literal or label" for that operand |
| Encoders.EncodeReg | assembler.py:38-48 | accepted iff the operand is an alias or `r`/`R` plus digits below 32, and then yields a register index in 0..31, which for a non-alias is the value of its digits; a bad shape is "expected register" and an out-of-range number is "invalid register" |
| Encoders.ResolveAlias | assembler.py:39-42 | an operand that is not an alias in any case is kept; an alias becomes one of the register names of `REG_NAMES` |
| Encoders.ResolvedAlias | assembler.py:13-18 | every alias, in any case, resolves to a well-formed register name below 32 |
| Encoders.AliasIndices | assembler.py:13-18 | `ip`, `rp`, `fp` and `sp`, in any letter case, are registers 0, 29, 30 and 31 |
| Encoders.RegisterByNumber | assembler.py:43-48 | `r<n>` and `R<n>` with `n` below 32 are register `n` |
| Encoders.RegisterOutOfRange | assembler.py:45-46 | `r<n>` and `R<n>` with `n` of 32 or more are an invalid register |
| Encoders.EncodeData | assembler.py:50-57 | accepted iff the operand is a nonnegative integer `n`, and then yields exactly `n` words, all zero; otherwise "expected nonnegative integer" |
| Encoders.DataCount | assembler.py:57 | `.data n` reserves exactly `n` zero words |
| Encoders.DataNegative | assembler.py:55-56 | a negative count is refused with "expected nonnegative integer" |
| Encoders.ImmLiteral | assembler.py:25-26 | the printed form of any integer is encoded as exactly that integer, with no relocation |
| Encoders.Encode | assembler.py:180-182 | only `IMM` touches the relocation table, and then by exactly the one site at `ofs` and a `0` word; a `REG` word is a register index below 32 |
| Encoders.EncodePlacement | assembler.py:180-182 | whether an operand is accepted, the words it yields and its error do not depend on its offset or on the relocation table |
| Formats.Lookup | assembler.py:170 | `INSNS[op.casefold()]`: found exactly when the case-folded mnemonic is in the table, and then its entry |
| Formats.LookupIgnoresCase | assembler.py:170 | mnemonics that case-fold alike find the same format |
| Formats.FormatShapes | assembler.py:62-82 | each instruction emits one opcode word in 1..18 and has at most two `IMM`/`REG` operands; `.data` emits no opcode and has one `DATA` operand |
| Formats.OpcodeDetermines | assembler.py:62-82 | the opcode word determines the mnemonic, so no two instructions share an opcode |
| Preprocessor.Preprocess | assembler.py:131-167 | no token is empty or holds a blank, and a line whose code has no `:` has no labels |
| Preprocessor.PreprocessRender | assembler.py:131-167 | a line written as identifier labels, each followed by `:`, then space-separated tokens, preprocesses back to exactly those labels and tokens |
| Preprocessor.NoColon | assembler.py:138-139 | any line whose code (after dropping the terminator and the comment, and stripping) has no colon has no labels, and its tokens are the words of that code |
| Preprocessor.CommentIgnored | assembler.py:135 | for code that holds no `//` and does not end in `/` or a terminator, appending `//` and any comment leaves the parsed line unchanged |
| Preprocessor.LabelNamesColonFree | assembler.py:144 | no label name contains `:` |
| Preprocessor.TokensColonFree | assembler.py:138 | no token contains `:`, because the instruction starts after the last colon |
| Preprocessor.ParseAll | assembler.py:131 | the file has one parsed line per source line, in order |
| AsmState.Init | assembler.py:106-118 | the passes start with an empty buffer, empty label and relocation tables, no diagnostics, the error flag clear and the invariant holding |
| AsmState.ReportError | assembler.py:125-129 | `err`: appends one error diagnostic for the given line and message, sets the sticky flag, and changes nothing else |
| Pass1.PlaceholderPreservesInv | assembler.py:31-32 | appending a placeholder with its relocation keeps every site inside the buffer, on a `0` word, and owned by one name |
| Pass1.EncodeOperands | assembler.py:179-185 | the operand loop only extends the buffer and the diagnostics and never clears the error flag |
| Pass1.EncodeOperandsInv | assembler.py:179-185 | the operand loop keeps the invariant: sites inside the buffer, on `0` placeholders, and disjoint |
| Pass1.OperandsAccepted | assembler.py:179-185 | when every operand is accepted, the buffer grows by exactly their words in operand order and nothing is reported |
| Pass1.OperandsRejected | assembler.py:180-185 | the first refused operand, at position `i`, is reported once, numbered from 1, with its encoder's message; the error flag is set and the later operands are skipped |
| Pass1.OperandsRejectedWords | assembler.py:180-185 | on a refused operand, the words of the operands before it stay in the buffer and nothing else is appended |
| Pass1.BindLabel | assembler.py:144-161 | a digit name is skipped silently, leaving the state unchanged; a non-identifier is reported as an invalid label name, an already bound name as a duplicate citing the first line, and either binds nothing; a new identifier is bound to the line's label with nothing reported |
| Pass1.BindLabels | assembler.py:139-161 | the label loop never changes the buffer, the relocations or an existing binding |
| Pass1.BindLabelsInv | assembler.py:139-161 | the label loop keeps the invariant |
| Pass1.BindLabelsBinds | assembler.py:141-161 | after the loop the names bound are exactly the old ones plus the line's identifier names, and every new one is bound to the line's offset and line number |
| Pass1.BindLabelsError | assembler.py:144-158 | the label loop sets the error flag exactly when some name is not a digit string and is either not an identifier or already bound, earlier or on the same line |
| Pass1.BindLabelsDuplicate | assembler.py:155-158 | a redefinition is reported on the redefining line and cites the line of the first definition |
| Pass1.Emit | assembler.py:163-185 | the instruction part of a line only extends the buffer and diagnostics and binds no labels |
| Pass1.EmitRejects | assembler.py:163-177 | an empty line changes nothing; an unknown mnemonic or a wrong operand count is reported on that line and appends no words |
| Pass1.EmitAccepted | assembler.py:175-185 | a line whose operands are all accepted appends its opcode words and then the operands' words, and reports nothing |
| Pass1.Step | assembler.py:131-185 | one line only extends the buffer and diagnostics and keeps every existing binding |
| Pass1.StepLabels | assembler.py:139-161 | a line binds exactly its new identifier labels, all to the buffer length before the line and to the line's number |
| Pass1.StepDuplicate | assembler.py:155-158 | a label redefined on line `lnr` is reported on line `lnr` |
| Pass1.Run | assembler.py:131-185 | the per-line loop, lines numbered from 1, keeps both tables well-formed ordered maps |
| Pass1.RunInv | assembler.py:131-185 | after any number of lines, every relocation site is inside the buffer and holds a `0`, sites of distinct names are distinct, labels point inside the buffer, and the error flag is set iff an error was reported |
| Pass1.RunPrefix | assembler.py:131 | later lines only extend the buffer and diagnostics of earlier ones, and never clear the error flag |
| Pass1.RunKeepsLabels | assembler.py:155-161 | a label, once bound, keeps its binding to the end of the pass |
| Pass1.LabelOffset | assembler.py:141 | every bound label records a line that lists it, and its offset is the number of words emitted by the lines before that line |
| Pass1.BoundAtEnd | assembler.py:150-161 | an identifier label on any line is bound at the end of the pass |
| Pass1.DuplicateStops | assembler.py:155-158 | a label defined on two lines makes the first pass fail |
| Pass1.UnusedWarnings | assembler.py:187-189 | the warnings are all unused-label warnings, and a label is warned about, at its definition line, exactly when no relocation names it |
| Pass1.WarnUnused | assembler.py:187-189 | the unused-label check only appends warnings: it keeps the buffer, the tables, the error flag and the invariant, and it warns about a label exactly when it is unreferenced |
| Pass2.Patch | assembler.py:201-202 | after patching, a word holds the value exactly when its index is one of the sites; every other word is unchanged |
| Pass2.ResolveOne | assembler.py:196-202 | a name without a label adds one undefined-label error and sets the flag; a defined name adds nothing |
| Pass2.Resolve | assembler.py:195-202 | resolution keeps the buffer length and both tables, and only extends the diagnostics |
| Pass2.ResolveUntouched | assembler.py:201-202 | a word that is no site of any defined name keeps its value |
| Pass2.ResolvePatched | assembler.py:201-202 | every site of a defined name holds that label's offset at the end, even with later names patched after it |
| Pass2.ResolveError | assembler.py:196-200 | Pass 2 sets the error flag exactly when it was already set or some name has no label |
| Pass2.ReportsExactly | assembler.py:196-200 | every report is an undefined-label error for a listed name without a label; such a name is reported iff it has no label; nothing is reported iff every name has a label |
| Pass2.ResolveDiags | assembler.py:195-200 | Pass 2 appends exactly the undefined-label reports, in relocation order |
| Pass2.ResolveAll | assembler.py:195-202 | Pass 2 keeps the buffer length and both tables |
| Pass2.PatchedSite | assembler.py:201-202 | after Pass 2 each site of a defined name holds its label's offset |
| Pass2.UndefinedSite | assembler.py:196-200 | a site of a name without a label keeps its `0` placeholder |
| Pass2.UntouchedSite | assembler.py:201-202 | a word at no relocation site keeps its Pass 1 value |
| Output.OutputName | assembler.py:209-211 | the output name ends in `.vml` and differs from the input; a trailing `.asm` is replaced and any other name is extended |
| Output.OutputNameOfSource | assembler.py:209-211 | `stem.asm` becomes `stem.vml` |
| Output.Texts | assembler.py:216 | each word's text is its canonical `str()` form, parses back to that word and holds no newline |
| Output.SerializeAsWritten | assembler.py:215-216 | the text as the source writes it starts with the count line and ends in a newline |
| Output.Serialize | assembler.py:215-216 | the corrected file text ends in a newline |
| Output.ParseTexts | assembler.py:216 | the printed words read back as the same words |
| Output.SerializeRoundTrip | assembler.py:215-216 | the corrected file text reads back as the count followed by exactly the words |
| Output.AsWrittenAgrees | assembler.py:215-216 | for a non-empty program the source writes exactly the corrected text |
| Output.AsWrittenEmpty | assembler.py:215-216 | for the empty program the source writes `0`, a blank line, and so a text that does not read back |
| Assembler.Checked | assembler.py:187-189 | the unused-label check leaves the Pass 1 buffer, tables and error flag as they were, and the invariant holds |
| Assembler.Assemble | assembler.py:191-205 | the diagnostics of the whole run begin with those of Pass 1 and the unused-label check |
| Assembler.Pass2Outcome | assembler.py:195-205 | after a clean Pass 1, Pass 2 fails exactly when a referenced name has no label, and its error flag agrees with its diagnostics |
| Assembler.AssembleSucceeds | assembler.py:191-205 | a program is produced exactly when Pass 1 raised no error and every referenced name is a label, and exactly when no error was reported |
| Assembler.AssembledWords | assembler.py:195-202 | in a produced program each relocation site holds its label's offset, which is the number of words the lines before the label's line emitted |
| Assembler.AssembledPassThrough | assembler.py:201-202 | in a produced program every word at no relocation site is the word Pass 1 emitted |
| Assembler.DuplicateLabelFails | assembler.py:155-158 | a label defined on two lines means no program is produced |
| Assembler.UndefinedLabelFails | assembler.py:196-205 | a referenced name with no label means no program is produced |
| Assembler.UnusedLabelWarns | assembler.py:187-189 | an unreferenced label is warned about at its definition line |
| Assembler.Program | assembler.py:209-216 | an output file exists exactly when assembly succeeds; its name is `OutputName` of the input name, so it ends in `.vml`; its text is the corrected `Serialize` of the assembled words, reads back as those words, and for a non-empty program it is `SerializeAsWritten` of those words, the source's two print calls |

## Left out

- The command-line check and the reading of the source file (assembler.py:85-100) are I/O. The source is a parameter `seq<string>` of lines, each with its terminator.
- The file write (assembler.py:214) is I/O. `Assembler.Program` returns the file name and the text instead.
- The layout of the printed diagnostics (assembler.py:120-129) is left out. Each diagnostic is a record of severity, line and message, and the message texts are datatype constructors.
- The exit status (assembler.py:191-192, 204-205) is modelled as the `Assembler.Outcome` variant rather than a process exit.
- The `OperandException` class (assembler.py:7-11) is modelled as the `Encoders.OperandError` datatype carried in a `Result`.
- Numerals.ParseInt: models `int()` for ASCII only, as an optional `-` and decimal digits. Python also accepts a leading `+`, `_` between digits, surrounding whitespace and non-ASCII digits. Tokens never carry whitespace here, so only the other forms differ. Python's `int()` also refuses decimal text longer than 4300 digits by default, and the model has no such limit: `movi 1<4300 zeros> r1` is reported by the source as "expected literal or label" and `.data <4301 digits>` as "expected nonnegative integer", while the model accepts both. The limit is not modelled because it would break the `IntToString` round trip for large words.
- Text.Lower: models `casefold()` for ASCII letters only.
- Preprocessor.Preprocess: `isspace` (through `strip` and `split`) is modelled for ASCII only; non-ASCII blanks are not recognised as whitespace.
- Pass1.BindLabel: `isdigit` (assembler.py:146) and `isidentifier` (assembler.py:150) are modelled for ASCII only; a label of non-ASCII digits or identifier letters is reported as an invalid label name instead of being skipped or bound.
- Encoders.EncodeImm: `int()` (assembler.py:26) and `isidentifier` (assembler.py:29) are modelled for ASCII only; non-ASCII digits and identifier letters are refused as "expected literal or label".
- Encoders.EncodeReg: yields the register's integer index. The source appends the digit string itself (assembler.py:48), so `r05` is written out as `05` rather than `5`. Its `isdigit` check (assembler.py:43) is modelled for ASCII digits only. Python's `isdigit` also accepts characters such as `²` that `int()` rejects, so `mov r² r1` passes the shape check and the source then stops with an uncaught `ValueError` at assembler.py:45; the model reports "expected register" for it. Likewise `mov r1<4300 zeros> r2` passes the `isdigit` check, and the source's `int()` then raises an uncaught `ValueError` at assembler.py:45 because of the 4300-digit limit, while the model reports "invalid register".
- Assembler.Program: writes the corrected text `Output.Serialize`, not the source's `Output.SerializeAsWritten`. The two differ only for a program with no words, for which the source writes `"0\n\n"` and the model writes `"0\n"` (see Findings). Its read-back clause holds because of that correction. The words themselves differ from the source's for a register operand with a leading zero (see `Encoders.EncodeReg`), so the text equals the source's only when the program has at least one word and no such operand.
- Pass2.ResolveOne: the undefined-label error carries no line number. The source reports the stale loop variable `lnr` of Pass 1 (assembler.py:199), which is always the last line of the file.

## Findings

| source | as written | input that shows it | evidently intended | confidence | as-written member | corrected member |
|---|---|---|---|---|---|---|
| assembler.py:215-216 | the count is printed, then the words joined by newlines are printed as one more line, so an empty program is written as `0`, a newline and an empty line | a source with no instructions (for example a single comment line): the file is `"0\n\n"`, with a count of 0 followed by one line | the count line followed by exactly one line per word, `"0\n"` for an empty program | not executed | Output.AsWrittenEmpty | Output.SerializeRoundTrip |

=== FILE: asm_state.dfy ===
/** The state threaded through both passes: the output word buffer
    (`compiled`), the label table (`all_labels`), the relocation table
    (`relocs`), the diagnostics printed so far and the sticky `error` flag. */
module AsmState {
  import opened Wrappers
  import opened Tables
  import opened Encoders

  datatype Severity = Warning | Error

  datatype Message =
    | InvalidLabelName(name: string)
    | DuplicateLabel(name: string, previousLine: nat)
    | UnknownInstruction(mnemonic: string)
    | WrongOperandCount(mnemonic: string, expected: nat, got: nat)
    | BadOperand(position: nat, reason: OperandError)
    | UnusedLabel(name: string)
    | UndefinedLabel(name: string)

  /** One diagnostic. Pass 2 errors carry no line number. */
  datatype Diag = Diag(severity: Severity, line: Option<nat>, msg: Message)

  datatype State = State(
    compiled: seq<int>,
    labels: LabelTable,
    relocs: RelocTable,
    diags: seq<Diag>,
    error: bool)

  /** The state before the first line. */
  function Init(): (s: State)
    ensures Inv(s) && s.compiled == [] && s.diags == [] && !s.error
    ensures s.labels.entries == map[] && s.relocs.entries == map[]
  {
    State([], Empty(), Empty(), [], false)
  }

  /** Some diagnostic is an error. */
  predicate HasError(diags: seq<Diag>) {
    exists i :: 0 <= i < |diags| && diags[i].severity == Error
  }

  /** `err(...)`: record an error and set the sticky flag. */
  function ReportError(s: State, line: Option<nat>, msg: Message): (r: State)
    ensures r.error && HasError(r.diags)
    ensures r == s.(diags := s.diags + [Diag(Error, line, msg)], error := true)
  {
    var r := s.(diags := s.diags + [Diag(Error, line, msg)], error := true);
    assert r.diags[|s.diags|].severity == Error;
    r
  }

  /** An error diagnostic among `diags` means `HasError`. */
  lemma ErrorReported(diags: seq<Diag>, d: Diag)
    requires d in diags && d.severity == Error
    ensures HasError(diags)
  {
    var i :| 0 <= i < |diags| && diags[i] == d;
  }

  /** Every recorded patch site lies inside the buffer. */
  ghost predicate SitesInRange(compiled: seq<int>, relocs: RelocTable) {
    forall n, k :: n in relocs.entries && 0 <= k < |relocs.entries[n]| ==>
      relocs.entries[n][k] < |compiled|
  }

  /** Every patch site still holds the placeholder `0`. */
  ghost predicate Placeholders(compiled: seq<int>, relocs: RelocTable)
    requires SitesInRange(compiled, relocs)
  {
    forall n, k :: n in relocs.entries && 0 <= k < |relocs.entries[n]| ==>
      compiled[relocs.entries[n][k]] == 0
  }

  /** Each name's sites increase strictly, and no two names share a site:
      every word is written by exactly one encoder. */
  ghost predicate SitesDisjoint(relocs: RelocTable) {
    && (forall n, j, k :: n in relocs.entries && 0 <= j < k < |relocs.entries[n]| ==>
          relocs.entries[n][j] < relocs.entries[n][k])
    && (forall a, b, j, k ::
          a in relocs.entries && b in relocs.entries && a != b
          && 0 <= j < |relocs.entries[a]| && 0 <= k < |relocs.entries[b]| ==>
          relocs.entries[a][j] != relocs.entries[b][k])
  }

  /** Every label points inside the buffer, or just past its end. */
  ghost predicate LabelsInRange(compiled: seq<int>, labels: LabelTable) {
    forall n :: n in labels.entries ==> labels.entries[n].ofs <= |compiled|
  }

  /** Both tables are well-formed ordered maps. */
  ghost predicate TablesValid(s: State) {
    Valid(s.labels) && Valid(s.relocs)
  }

  /** The invariant of Pass 1. */
  ghost predicate Inv(s: State) {
    && TablesValid(s)
    && SitesInRange(s.compiled, s.relocs)
    && Placeholders(s.compiled, s.relocs)
    && SitesDisjoint(s.relocs)
    && LabelsInRange(s.compiled, s.labels)
    && s.error == HasError(s.diags)
  }
}

=== FILE: assembler.dfy ===
/** The whole assembler: Pass 1, the unused-label warnings, the error gate,
    Pass 2, the second gate, and the output file. */
module Assembler {
  import opened Wrappers
  import opened Text
  import opened Tables
  import opened Preprocessor
  import opened AsmState
  import opened Pass1
  import opened Pass2
  import opened Output

  /** `Assembled` when the source reaches the output write; `Failed` when
      it exits with status 1 at either gate. Both carry every diagnostic
      printed on the way. */
  datatype Outcome = Assembled(words: seq<int>, diags: seq<Diag>) | Failed(diags: seq<Diag>)

  /** The state Pass 1 and the unused-label check leave behind. */
  function Checked(lines: seq<Line>): (s: State)
    ensures Inv(s)
    ensures s.compiled == Run(lines).compiled && s.labels == Run(lines).labels && s.relocs == Run(lines).relocs
    ensures s.error == Run(lines).error
  {
    RunInv(lines);
    WarnUnused(Run(lines))
  }

  /** The source run end to end: Pass 2 runs only after a clean first
      pass, and the words are kept only when Pass 2 is clean too. */
  function Assemble(lines: seq<Line>): (r: Outcome)
    ensures Checked(lines).diags <= r.diags
  {
    var s := Checked(lines);
    if s.error then Failed(s.diags)
    else
      var t := ResolveAll(s);
      if t.error then Failed(t.diags) else Assembled(t.compiled, t.diags)
  }

  /** After a clean first pass, Pass 2 fails exactly when some referenced
      name has no label, and its error flag agrees with its diagnostics. */
  lemma {:induction false} Pass2Outcome(s: State)
    requires Inv(s) && !s.error
    ensures ResolveAll(s).error <==> exists n :: n in s.relocs.entries && n !in s.labels.entries
    ensures ResolveAll(s).error == HasError(ResolveAll(s).diags)
  {
    var names := s.relocs.keys;
    var r := ResolveAll(s);
    ResolveError(s, names);
    ResolveDiags(s, names);
    ReportsExactly(s.labels.entries, names);
    var ds := UndefinedReports(s.labels.entries, names);
    if r.error {
      var j :| 0 <= j < |names| && names[j] !in s.labels.entries;
      assert r.diags[|s.diags|] == ds[0];
    } else {
      assert ds == [];
    }
  }

  /** The program is assembled exactly when Pass 1 raised no error and
      every referenced name is a label, and exactly when no error was
      reported. */
  lemma {:induction false} AssembleSucceeds(lines: seq<Line>)
    ensures Assemble(lines).Assembled? <==>
      !Run(lines).error && forall n :: n in Run(lines).relocs.entries ==> n in Run(lines).labels.entries
    ensures Assemble(lines).Assembled? <==> !HasError(Assemble(lines).diags)
  {
    var s := Checked(lines);
    if !s.error {
      Pass2Outcome(s);
    } else {
      assert HasError(s.diags);
    }
  }

  /** Every relocation site of an assembled program holds its label's
      offset, which is the number of words the lines before the label's
      line emitted; every other word is the one Pass 1 emitted. */
  lemma {:induction false} AssembledWords(lines: seq<Line>, n: string, k: nat)
    requires Assemble(lines).Assembled?
    requires n in Run(lines).relocs.entries && k < |Run(lines).relocs.entries[n]|
    ensures n in Run(lines).labels.entries
    ensures var lbl := Run(lines).labels.entries[n];
      && 1 <= lbl.line <= |lines| && n in lines[lbl.line - 1].labels
      && Assemble(lines).words[Run(lines).relocs.entries[n][k]] == lbl.ofs
      && lbl.ofs == |Run(lines[..lbl.line - 1]).compiled|
  {
    AssembleSucceeds(lines);
    PatchedSite(Checked(lines), n, k);
    LabelOffset(lines, n);
  }

  /** Words at no relocation site are passed through unchanged. */
  lemma {:induction false} AssembledPassThrough(lines: seq<Line>, i: nat)
    requires Assemble(lines).Assembled? && i < |Run(lines).compiled|
    requires forall n :: n in Run(lines).relocs.entries ==> i !in Run(lines).relocs.entries[n]
    ensures |Assemble(lines).words| == |Run(lines).compiled|
    ensures Assemble(lines).words[i] == Run(lines).compiled[i]
  {
    UntouchedSite(Checked(lines), i);
  }

  /** A label defined on two lines stops the assembly. */
  lemma {:induction false} DuplicateLabelFails(lines: seq<Line>, a: nat, b: nat, n: string)
    requires a < b < |lines| && n in BoundNames(lines[a]) && n in BoundNames(lines[b])
    ensures Assemble(lines).Failed?
  {
    DuplicateStops(lines, a, b, n);
  }

  /** A referenced name that no line defines stops the assembly. */
  lemma {:induction false} UndefinedLabelFails(lines: seq<Line>, n: string)
    requires n in Run(lines).relocs.entries && n !in Run(lines).labels.entries
    ensures Assemble(lines).Failed?
  {
    AssembleSucceeds(lines);
  }

  /** An unreferenced label is reported as a warning at its definition
      line. */
  lemma {:induction false} UnusedLabelWarns(lines: seq<Line>, n: string)
    requires n in Run(lines).labels.entries && n !in Run(lines).relocs.entries
    ensures Diag(Warning, Some(Run(lines).labels.entries[n].line), UnusedLabel(n)) in Assemble(lines).diags
  {
    RunInv(lines);
    var s := Run(lines);
    var w := WarnUnused(s);
    assert Diag(Warning, Some(s.labels.entries[n].line), UnusedLabel(n)) in w.diags[|s.diags|..];
  }

  /** The output file for a source file: its name and text, when assembly
      succeeds. */
  function Program(filename: string, source: seq<string>): (r: Option<(string, string)>)
    ensures r.Some? <==> Assemble(ParseAll(source)).Assembled?
    ensures r.Some? ==> EndsWith(r.value.0, ".vml") && ParseOutput(r.value.1) == Some(Assemble(ParseAll(source)).words)
    ensures r.Some? && Assemble(ParseAll(source)).words != [] ==> r.value.1 == SerializeAsWritten(Assemble(ParseAll(source)).words)
    ensures r.Some? ==> r.value.0 == OutputName(filename) && r.value.1 == Serialize(Assemble(ParseAll(source)).words)
  {
    match Assemble(ParseAll(source))
    case Failed(_) => None
    case Assembled(words, _) =>
      SerializeRoundTrip(words);
      assert words != [] ==> SerializeAsWritten(words) == Serialize(words) by {
        if words != [] { AsWrittenAgrees(words); }
      }
      Some((OutputName(filename), Serialize(words)))
  }
}

=== FILE: encoders.dfy ===
/** The three operand encoders `IMM`, `REG` and `DATA`. Each turns one
    operand token into the words to append, or fails with the message the
    source raises as an `OperandException`. */
module Encoders {
  import opened Wrappers
  import opened Text
  import opened Numerals
  import opened Tables

  datatype Encoder = Imm | Reg | Data

  datatype OperandError =
    | ExpectedLiteralOrLabel(found: string)
    | ExpectedRegister(found: string)
    | InvalidRegister(found: string)
    | ExpectedNonnegative(found: string)

  /** The words an encoder appends and the relocation table after it. */
  datatype Encoded = Encoded(words: seq<int>, relocs: RelocTable)

  const RegisterCount: nat := 32

  /** `REG_NAMES`: register aliases, looked up after case folding. */
  const RegNames: map<string, string> := map["ip" := "r0", "rp" := "r29", "fp" := "r30", "sp" := "r31"]

  /** The register operands `REG` accepts: an alias in any case, or `r`/`R`
      followed by decimal digits whose value is below 32. */
  predicate IsRegisterOperand(operand: string) {
    || Lower(operand) in RegNames
    || (|operand| >= 2 && LowerChar(operand[0]) == 'r' && IsDigits(operand[1..])
        && DigitsValue(operand[1..]) < RegisterCount)
  }

  /** The register an alias names, or the operand itself. */
  function ResolveAlias(operand: string): (r: string)
    ensures Lower(operand) !in RegNames ==> r == operand
    ensures Lower(operand) in RegNames ==> r in RegNames.Values
  {
    var k := Lower(operand);
    if k in RegNames then RegNames[k] else operand
  }

  /** `IMM`: an integer literal is kept as it is; an identifier is taken to
      be a label, records a relocation at `ofs` and yields a placeholder. */
  function EncodeImm(operand: string, ofs: nat, relocs: RelocTable): (r: Result<Encoded, OperandError>)
    requires Valid(relocs)
    ensures r.Success? <==> ParseInt(operand).Some? || IsIdentifier(operand)
    ensures ParseInt(operand).Some? ==> r == Success(Encoded([ParseInt(operand).value], relocs))
    ensures IsIdentifier(operand) ==>
      && r.Success? && r.value.words == [0]
      && Valid(r.value.relocs)
      && r.value.relocs.entries.Keys == relocs.entries.Keys + {operand}
      && SitesOf(r.value.relocs, operand) == SitesOf(relocs, operand) + [ofs]
      && (forall n :: n != operand ==> SitesOf(r.value.relocs, n) == SitesOf(relocs, n))
    ensures r.Failure? ==> r.error == ExpectedLiteralOrLabel(operand)
  {
    match ParseInt(operand)
    case Some(n) => Success(Encoded([n], relocs))
    case None =>
      if !IsIdentifier(operand) then Failure(ExpectedLiteralOrLabel(operand))
      else Success(Encoded([0], AddSite(relocs, operand, ofs)))
  }

  /** `REG`: resolve an alias, then require `r` and a register number. The
      word is the register's index. */
  function EncodeReg(operand: string): (r: Result<int, OperandError>)
    requires operand != []
    ensures r.Success? <==> IsRegisterOperand(operand)
    ensures r.Success? ==> 0 <= r.value < RegisterCount
    ensures r.Success? && Lower(operand) !in RegNames ==> r.value == DigitsValue(operand[1..]) as int
    ensures r.Failure? ==> r.error.found == operand
    ensures r.Failure? ==>
      (r.error == InvalidRegister(operand) <==> LowerChar(operand[0]) == 'r' && IsDigits(operand[1..]))
    ensures r.Failure? ==> r.error.InvalidRegister? || r.error.ExpectedRegister?
  {
    var o := ResolveAlias(operand);
    ResolvedAlias(operand);
    if LowerChar(o[0]) != 'r' || !IsDigits(o[1..]) then Failure(ExpectedRegister(o))
    else if DigitsValue(o[1..]) >= RegisterCount then Failure(InvalidRegister(o))
    else Success(DigitsValue(o[1..]))
  }

  /** An alias resolves to a register name `REG` accepts. */
  lemma ResolvedAlias(operand: string)
    requires operand != []
    ensures var o := ResolveAlias(operand);
      Lower(operand) in RegNames ==>
        |o| >= 2 && LowerChar(o[0]) == 'r' && IsDigits(o[1..]) && DigitsValue(o[1..]) < RegisterCount
  {
    assert DigitsValue("0") == 0;
    assert DigitsValue("29") == 29 by { assert "29"[..1] == "2"; }
    assert DigitsValue("30") == 30 by { assert "30"[..1] == "3"; }
    assert DigitsValue("31") == 31 by { assert "31"[..1] == "3"; }
  }

  /** `DATA`: a nonnegative count `n` reserves `n` zero words. */
  function EncodeData(operand: string): (r: Result<seq<int>, OperandError>)
    ensures r.Success? <==> ParseInt(operand).Some? && ParseInt(operand).value >= 0
    ensures r.Success? ==> |r.value| == ParseInt(operand).value
    ensures r.Success? ==> forall i :: 0 <= i < |r.value| ==> r.value[i] == 0
    ensures r.Failure? ==> r.error == ExpectedNonnegative(operand)
  {
    var n := match ParseInt(operand) case Some(v) => v case None => -1;
    if n < 0 then Failure(ExpectedNonnegative(operand)) else Success(seq(n, _ => 0))
  }

  /** Dispatch on the encoder of one operand slot. Only `IMM` touches the
      relocation table, and then by exactly one site at `ofs`. */
  function Encode(e: Encoder, operand: string, ofs: nat, relocs: RelocTable): (r: Result<Encoded, OperandError>)
    requires operand != [] && Valid(relocs)
    ensures r.Success? ==> Valid(r.value.relocs)
    ensures r.Success? ==>
      || r.value.relocs == relocs
      || (e == Imm && r.value.words == [0] && r.value.relocs == AddSite(relocs, operand, ofs))
    ensures r.Success? && e != Imm ==> r.value.relocs == relocs
    ensures e == Reg && r.Success? ==> |r.value.words| == 1 && 0 <= r.value.words[0] < RegisterCount
  {
    match e
    case Imm => EncodeImm(operand, ofs, relocs)
    case Reg =>
      (match EncodeReg(operand)
       case Success(v) => Success(Encoded([v], relocs))
       case Failure(err) => Failure(err))
    case Data =>
      (match EncodeData(operand)
       case Success(ws) => Success(Encoded(ws, relocs))
       case Failure(err) => Failure(err))
  }

  /** Integer text is encoded as exactly that integer, with no relocation. */
  lemma ImmLiteral(n: int, ofs: nat, relocs: RelocTable)
    requires Valid(relocs)
    ensures EncodeImm(IntToString(n), ofs, relocs) == Success(Encoded([n], relocs))
  {
  }

  /** `r<n>` and `R<n>` name register `n` for every `n` below 32. */
  lemma RegisterByNumber(c: char, n: nat)
    requires c == 'r' || c == 'R'
    requires n < RegisterCount
    ensures EncodeReg([c] + NatToString(n)) == Success(n)
  {
    var op := [c] + NatToString(n);
    assert op[1..] == NatToString(n);
    assert Lower(op)[1] == NatToString(n)[0];
  }

  /** A register number of 32 or more is reported as an invalid register. */
  lemma RegisterOutOfRange(c: char, n: nat)
    requires c == 'r' || c == 'R'
    requires n >= RegisterCount
    ensures EncodeReg([c] + NatToString(n)) == Failure(InvalidRegister([c] + NatToString(n)))
  {
    var op := [c] + NatToString(n);
    assert op[1..] == NatToString(n);
    assert Lower(op)[1] == NatToString(n)[0];
  }

  /** The aliases name registers 0, 29, 30 and 31 in any letter case. */
  lemma AliasIndices(operand: string)
    requires operand != []
    ensures Lower(operand) == "ip" ==> EncodeReg(operand) == Success(0)
    ensures Lower(operand) == "rp" ==> EncodeReg(operand) == Success(29)
    ensures Lower(operand) == "fp" ==> EncodeReg(operand) == Success(30)
    ensures Lower(operand) == "sp" ==> EncodeReg(operand) == Success(31)
  {
    assert DigitsValue("0") == 0;
    assert DigitsValue("29") == 29 by { assert "29"[..1] == "2"; }
    assert DigitsValue("30") == 30 by { assert "30"[..1] == "3"; }
    assert DigitsValue("31") == 31 by { assert "31"[..1] == "3"; }
  }

  /** `.data n` reserves exactly `n` zero words. */
  lemma DataCount(n: nat)
    ensures EncodeData(NatToString(n)) == Success(seq(n, _ => 0))
  {
  }

  /** A negative count is rejected. */
  lemma DataNegative(n: nat)
    requires n > 0
    ensures EncodeData(IntToString(-(n as int))) == Failure(ExpectedNonnegative(IntToString(-(n as int))))
  {
  }

  /** Where an operand lands affects only the relocation it records: whether
      it is accepted, its words and its error are the same at any offset
      and against any relocation table. */
  lemma EncodePlacement(e: Encoder, operand: string, ofs: nat, relocs: RelocTable, ofs': nat, relocs': RelocTable)
    requires operand != [] && Valid(relocs) && Valid(relocs')
    ensures var a, b := Encode(e, operand, ofs, relocs), Encode(e, operand, ofs', relocs');
      && (a.Success? <==> b.Success?)
      && (a.Success? ==> a.value.words == b.value.words)
      && (a.Failure? ==> a.error == b.error)
  {
  }
}

=== FILE: formats.dfy ===
/** The instruction format table `INSNS`: for each mnemonic, the opcode
    words it emits (none for the `.data` pseudo-op) and the encoders of its
    operands, in order. */
module Formats {
  import opened Wrappers
  import opened Text
  import opened Encoders

  datatype Format = Format(opcode: seq<int>, operands: seq<Encoder>)

  const Insns: map<string, Format> := map[
    "movi" := Format([1], [Imm, Reg]),
    "mov" := Format([2], [Reg, Reg]),
    "add" := Format([3], [Reg, Reg]),
    "sub" := Format([4], [Reg, Reg]),
    "mul" := Format([5], [Reg, Reg]),
    "idiv" := Format([6], [Reg, Reg]),
    "jmp" := Format([7], [Reg]),
    "jnz" := Format([8], [Reg, Reg]),
    "out" := Format([9], [Reg]),
    "halt" := Format([10], []),
    "ld" := Format([11], [Reg, Reg]),
    "st" := Format([12], [Reg, Reg]),
    "jal" := Format([13], [Reg]),
    "ret" := Format([14], []),
    "push" := Format([15], [Reg]),
    "pop" := Format([16], [Reg]),
    "ldlo" := Format([17], [Imm, Reg]),
    "stlo" := Format([18], [Imm, Reg]),
    ".data" := Format([], [Data])
  ]

  /** `INSNS[op.casefold()]`. */
  function Lookup(mnemonic: string): (r: Option<Format>)
    ensures r.Some? <==> Lower(mnemonic) in Insns
    ensures r.Some? ==> r.value == Insns[Lower(mnemonic)]
  {
    var k := Lower(mnemonic);
    if k in Insns then Some(Insns[k]) else None
  }

  /** Lookup ignores letter case: mnemonics that fold to the same text find
      the same format. */
  lemma LookupIgnoresCase(a: string, b: string)
    requires Lower(a) == Lower(b)
    ensures Lookup(a) == Lookup(b)
  {
  }

  /** Every real instruction emits one opcode word in 1..18 and has only
      `IMM`/`REG` operands; `.data` alone emits no opcode and takes one
      `DATA` operand. */
  lemma FormatShapes(mnemonic: string)
    requires Lookup(mnemonic).Some?
    ensures var f := Lookup(mnemonic).value;
      if Lower(mnemonic) == ".data" then f.opcode == [] && f.operands == [Data]
      else (|f.opcode| == 1 && 1 <= f.opcode[0] <= 18 && |f.operands| <= 2
            && forall i :: 0 <= i < |f.operands| ==> f.operands[i] != Data)
  {
  }

  /** The mnemonics of opcodes 1..18, in opcode order. */
  const Mnemonics: seq<string> := [
    "movi", "mov", "add", "sub", "mul", "idiv", "jmp", "jnz", "out",
    "halt", "ld", "st", "jal", "ret", "push", "pop", "ldlo", "stlo"
  ]

  /** An opcode word determines its mnemonic, so distinct mnemonics have
      distinct opcodes. */
  lemma OpcodeDetermines(mnemonic: string)
    requires mnemonic in Insns && mnemonic != ".data"
    ensures |Insns[mnemonic].opcode| == 1
    ensures Mnemonics[Insns[mnemonic].opcode[0] - 1] == mnemonic
  {
  }
}

=== FILE: numerals.dfy ===
/** Decimal numerals: `str.isdigit`, `int(...)` on operand text and `str(...)`
    on output words, restricted to ASCII. */
module Numerals {
  import opened Wrappers
  import opened Text

  /** `str.isdigit`: a non-empty run of decimal digits. */
  predicate IsDigits(s: string) {
    |s| > 0 && forall i :: 0 <= i < |s| ==> IsDigit(s[i])
  }

  /** No leading zero, except for the numeral `0` itself. */
  predicate Canonical(s: string) {
    IsDigits(s) && (s[0] != '0' || s == "0")
  }

  function DigitValue(c: char): (d: nat)
    requires IsDigit(c)
    ensures d < 10
  {
    (c as int) - ('0' as int)
  }

  function DigitChar(d: nat): (c: char)
    requires d < 10
    ensures IsDigit(c) && DigitValue(c) == d
  {
    (('0' as int) + d) as char
  }

  /** The value of a digit string, most significant digit first. */
  function DigitsValue(s: string): nat
    requires forall i :: 0 <= i < |s| ==> IsDigit(s[i])
    decreases |s|
  {
    if s == [] then 0 else 10 * DigitsValue(s[..|s| - 1]) + DigitValue(s[|s| - 1])
  }

  /** `int(s)` on a whitespace-free token: an optional `-` followed by digits. */
  function ParseInt(s: string): (r: Option<int>)
    ensures r.Some? <==> IsDigits(s) || (|s| > 0 && s[0] == '-' && IsDigits(s[1..]))
    ensures IsDigits(s) ==> r == Some(DigitsValue(s) as int)
    ensures |s| > 0 && s[0] == '-' && IsDigits(s[1..]) ==> r == Some(-(DigitsValue(s[1..]) as int))
  {
    if |s| > 0 && s[0] == '-' then
      if IsDigits(s[1..]) then Some(-(DigitsValue(s[1..]) as int)) else None
    else if IsDigits(s) then Some(DigitsValue(s))
    else None
  }

  /** `str(n)` for a natural number. */
  function NatToString(n: nat): (r: string)
    ensures Canonical(r)
    ensures DigitsValue(r) == n
    decreases n
  {
    if n < 10 then [DigitChar(n)]
    else
      var p := NatToString(n / 10);
      var r := p + [DigitChar(n % 10)];
      assert r[..|r| - 1] == p;
      r
  }

  /** How `str` writes `i`: the canonical numeral of its magnitude, after a
      `-` when `i` is negative. */
  predicate Printed(r: string, i: int) {
    if i >= 0 then Canonical(r) && DigitsValue(r) == i
    else |r| > 1 && r[0] == '-' && Canonical(r[1..]) && DigitsValue(r[1..]) == -i
  }

  /** `str(i)` for any integer. */
  function IntToString(i: int): (r: string)
    ensures ParseInt(r) == Some(i)
    ensures forall k :: 0 <= k < |r| ==> r[k] == '-' || IsDigit(r[k])
    ensures Printed(r, i)
  {
    if i < 0 then
      var r := "-" + NatToString(-i);
      assert r[1..] == NatToString(-i);
      r
    else
      NatToString(i)
  }

  /** A canonical numeral is the printed form of its value. */
  lemma {:induction false} NatToStringOfValue(s: string)
    requires Canonical(s)
    ensures NatToString(DigitsValue(s)) == s
    decreases |s|
  {
    if |s| > 1 {
      var p := s[..|s| - 1];
      assert Canonical(p);
      PositiveValue(p);
      NatToStringOfValue(p);
      var n := DigitsValue(s);
      assert n / 10 == DigitsValue(p) && n % 10 == DigitValue(s[|s| - 1]);
      assert s == p + [s[|s| - 1]];
    } else {
      assert DigitsValue(s) == DigitValue(s[0]) by { assert s[..0] == []; }
      assert [DigitChar(DigitValue(s[0]))] == s;
    }
  }

  /** `Printed` determines the text: it is exactly `str(i)`. */
  lemma PrintedUnique(r: string, i: int)
    requires Printed(r, i)
    ensures r == IntToString(i)
  {
    if i >= 0 {
      NatToStringOfValue(r);
    } else {
      NatToStringOfValue(r[1..]);
      assert r == "-" + r[1..];
    }
  }

  /** A digit string without a leading zero has a positive value. */
  lemma {:induction false} PositiveValue(s: string)
    requires IsDigits(s) && s[0] != '0'
    ensures DigitsValue(s) > 0
    decreases |s|
  {
    if |s| > 1 {
      PositiveValue(s[..|s| - 1]);
    }
  }
}

=== FILE: output.dfy ===
/** The `.vml` output: its file name, derived from the input name, and its
    text, the word count on the first line and then one word per line. */
module Output {
  import opened Wrappers
  import opened Text
  import opened Numerals

  /** A trailing `.asm` is replaced by `.vml`; any other name gets `.vml`
      appended. */
  function OutputName(filename: string): (r: string)
    ensures EndsWith(r, ".vml")
    ensures r != filename
    ensures EndsWith(filename, ".asm") ==> r == filename[..|filename| - 4] + ".vml"
    ensures !EndsWith(filename, ".asm") ==> r == filename + ".vml"
  {
    if EndsWith(filename, ".asm") then
      var r := filename[..|filename| - 4] + ".vml";
      assert r[|r| - 4..] == ".vml";
      assert r[|r| - 3] != filename[|filename| - 3];
      r
    else filename + ".vml"
  }

  /** `foo.asm` becomes `foo.vml`, whatever the stem. */
  lemma OutputNameOfSource(stem: string)
    ensures OutputName(stem + ".asm") == stem + ".vml"
  {
    var f := stem + ".asm";
    assert f[|f| - 4..] == ".asm";
    assert f[..|f| - 4] == stem;
  }

  /** `map(str, compiled)`. */
  function Texts(words: seq<int>): (r: seq<string>)
    ensures |r| == |words|
    ensures forall i :: 0 <= i < |r| ==> ParseInt(r[i]) == Some(words[i]) && '\n' !in r[i]
    ensures forall i :: 0 <= i < |r| ==> Printed(r[i], words[i])
  {
    seq(|words|, i requires 0 <= i < |words| => IntToString(words[i]))
  }

  /** The file text exactly as the source writes it: `print(len(compiled))`
      and then `print("\n".join(map(str, compiled)))`. */
  function SerializeAsWritten(words: seq<int>): (r: string)
    ensures var count := IntToString(|words|);
      |count| + 1 < |r| && r[..|count| + 1] == count + "\n" && r[|r| - 1] == '\n'
  {
    IntToString(|words|) + "\n" + Join(Texts(words), '\n') + "\n"
  }

  /** The file text with the count line followed by exactly one line per
      word. */
  function Serialize(words: seq<int>): (r: string)
    ensures r != [] && r[|r| - 1] == '\n'
  {
    Join([IntToString(|words|)] + Texts(words), '\n') + "\n"
  }

  /** Parse one decimal word per line. */
  function ParseWords(lines: seq<string>): (r: Option<seq<int>>)
    ensures r.Some? ==> |r.value| == |lines|
    decreases |lines|
  {
    if lines == [] then Some([])
    else match (ParseInt(lines[0]), ParseWords(lines[1..]))
      case (Some(v), Some(rest)) => Some([v] + rest)
      case _ => None
  }

  /** Read a `.vml` text back: newline-terminated lines, a count, and then
      exactly that many words. */
  function ParseOutput(text: string): Option<seq<int>> {
    if text == [] || text[|text| - 1] != '\n' then None
    else
      var lines := Split(text[..|text| - 1], '\n');
      match ParseInt(lines[0])
      case None => None
      case Some(n) => if n != |lines| - 1 then None else ParseWords(lines[1..])
  }

  /** Printed words read back as the same words. */
  lemma {:induction false} ParseTexts(words: seq<int>)
    ensures ParseWords(Texts(words)) == Some(words)
    decreases |words|
  {
    if words != [] {
      var t := Texts(words);
      ParseTexts(words[1..]);
      assert t[1..] == Texts(words[1..]);
      assert ParseInt(t[0]) == Some(words[0]);
      assert [words[0]] + words[1..] == words;
    }
  }

  /** The corrected output reads back as the word list it was written from. */
  lemma SerializeRoundTrip(words: seq<int>)
    ensures ParseOutput(Serialize(words)) == Some(words)
  {
    var pieces := [IntToString(|words|)] + Texts(words);
    var text := Serialize(words);
    assert text[..|text| - 1] == Join(pieces, '\n');
    SplitJoin(pieces, '\n');
    assert pieces[1..] == Texts(words);
    ParseTexts(words);
  }

  /** For a non-empty program the source writes the corrected text. */
  lemma AsWrittenAgrees(words: seq<int>)
    requires words != []
    ensures SerializeAsWritten(words) == Serialize(words)
  {
    var pieces := [IntToString(|words|)] + Texts(words);
    assert pieces[1..] == Texts(words);
  }

  /** For the empty program the source writes `0`, a blank line, and so one
      line more than the count announces: the text does not read back. */
  lemma AsWrittenEmpty()
    ensures SerializeAsWritten([]) == "0\n\n"
    ensures ParseOutput(SerializeAsWritten([])) == None
    ensures Serialize([]) == "0\n"
  {
    assert IntToString(0) == "0";
    var text := SerializeAsWritten([]);
    assert text[..|text| - 1] == Join(["0", ""], '\n');
    SplitJoin(["0", ""], '\n');
  }
}

=== FILE: pass1.dfy ===
/** Pass 1: bind labels, dispatch on the mnemonic and encode the operands,
    line by line, growing the word buffer and collecting diagnostics; then
    warn about labels nothing refers to. */
module Pass1 {
  import opened Wrappers
  import opened Text
  import opened Numerals
  import opened Tables
  import opened Encoders
  import opened Formats
  import opened Preprocessor
  import opened AsmState

  /** Appending any words keeps the invariant: sites and label offsets stay
      inside the longer buffer and the placeholders are untouched. */
  lemma AppendPreservesInv(s: State, words: seq<int>)
    requires Inv(s)
    ensures Inv(s.(compiled := s.compiled + words))
  {
    var c := s.compiled + words;
    assert forall i :: 0 <= i < |s.compiled| ==> c[i] == s.compiled[i];
  }

  /** Each site after `AddSite` is either the new one, last in its list, or
      an old site at the same position. */
  ghost predicate GrownBy(before: RelocTable, after: RelocTable, name: string, site: nat) {
    forall n, k :: n in after.entries && 0 <= k < |after.entries[n]| ==>
      || (n == name && k == |after.entries[n]| - 1 && after.entries[n][k] == site)
      || (n in before.entries && k < |before.entries[n]| && after.entries[n][k] == before.entries[n][k])
  }

  /** `AddSite` grows the table by exactly the new site. */
  lemma AddSiteGrows(relocs: RelocTable, name: string, site: nat)
    requires Valid(relocs)
    ensures GrownBy(relocs, AddSite(relocs, name, site), name, site)
  {
    var r := AddSite(relocs, name, site);
    forall n, k | n in r.entries && 0 <= k < |r.entries[n]|
      ensures || (n == name && k == |r.entries[n]| - 1 && r.entries[n][k] == site)
              || (n in relocs.entries && k < |relocs.entries[n]| && r.entries[n][k] == relocs.entries[n][k])
    {
      assert r.entries[n] == SitesOf(r, n);
      if n != name {
        assert r.entries[n] == SitesOf(relocs, n);
      }
    }
  }

  /** Appending an `IMM` placeholder together with its relocation keeps the
      invariant: the new site is past every old one, so it is fresh. */
  lemma PlaceholderPreservesInv(s: State, name: string)
    requires Inv(s)
    ensures Inv(s.(compiled := s.compiled + [0], relocs := AddSite(s.relocs, name, |s.compiled|)))
  {
    var c := s.compiled + [0];
    var relocs := AddSite(s.relocs, name, |s.compiled|);
    AddSiteGrows(s.relocs, name, |s.compiled|);
    assert SitesInRange(c, relocs);
    assert Placeholders(c, relocs) by {
      assert forall i :: 0 <= i < |s.compiled| ==> c[i] == s.compiled[i];
    }
    assert SitesDisjoint(relocs);
  }

  /** Appending an accepted operand's words keeps the invariant. */
  lemma EncodedPreservesInv(s: State, e: Encoder, op: string, enc: Encoded)
    requires Inv(s) && op != []
    requires Encode(e, op, |s.compiled|, s.relocs) == Success(enc)
    ensures Inv(s.(compiled := s.compiled + enc.words, relocs := enc.relocs))
  {
    if enc.relocs == s.relocs {
      AppendPreservesInv(s, enc.words);
    } else {
      PlaceholderPreservesInv(s, op);
    }
  }

  /** The `operand <opnum>` loop: encode each operand at the current buffer
      length and append its words; the first failing operand is reported
      and ends the line, keeping what earlier operands appended. */
  function EncodeOperands(s: State, encs: seq<Encoder>, ops: seq<string>, lnr: nat, position: nat): (r: State)
    requires TablesValid(s) && |encs| == |ops|
    requires forall i :: 0 <= i < |ops| ==> ops[i] != []
    ensures TablesValid(r)
    ensures s.compiled <= r.compiled && s.diags <= r.diags && (s.error ==> r.error)
    ensures r.labels == s.labels
    decreases |encs|
  {
    if encs == [] then s
    else match Encode(encs[0], ops[0], |s.compiled|, s.relocs)
      case Failure(e) => ReportError(s, Some(lnr), BadOperand(position, e))
      case Success(enc) =>
        var next := s.(compiled := s.compiled + enc.words, relocs := enc.relocs);
        EncodeOperands(next, encs[1..], ops[1..], lnr, position + 1)
  }

  /** Reporting an error keeps the invariant: only the diagnostics and the
      flag change, and they change together. */
  lemma ReportPreservesInv(s: State, line: Option<nat>, msg: Message)
    requires Inv(s)
    ensures Inv(ReportError(s, line, msg))
  {
  }

  /** The operand loop keeps the invariant. */
  lemma {:induction false} EncodeOperandsInv(s: State, encs: seq<Encoder>, ops: seq<string>, lnr: nat, position: nat)
    requires Inv(s) && |encs| == |ops|
    requires forall i :: 0 <= i < |ops| ==> ops[i] != []
    ensures Inv(EncodeOperands(s, encs, ops, lnr, position))
    decreases |encs|
  {
    if encs != [] {
      match Encode(encs[0], ops[0], |s.compiled|, s.relocs)
      case Failure(e) =>
        ReportPreservesInv(s, Some(lnr), BadOperand(position, e));
      case Success(enc) =>
        EncodedPreservesInv(s, encs[0], ops[0], enc);
        EncodeOperandsInv(s.(compiled := s.compiled + enc.words, relocs := enc.relocs), encs[1..], ops[1..], lnr, position + 1);
    }
  }

  /** Operand `op` is refused by encoder `e` (at any placement, by
      `EncodePlacement`). */
  predicate Rejects(e: Encoder, op: string)
    requires op != []
  {
    Encode(e, op, 0, Empty()).Failure?
  }

  /** The words the operands encode to, placement aside. */
  function OperandWords(encs: seq<Encoder>, ops: seq<string>): seq<int>
    requires |encs| == |ops|
    requires forall i :: 0 <= i < |ops| ==> ops[i] != [] && !Rejects(encs[i], ops[i])
    decreases |encs|
  {
    if encs == [] then []
    else
      assert !Rejects(encs[0], ops[0]);
      Encode(encs[0], ops[0], 0, Empty()).value.words + OperandWords(encs[1..], ops[1..])
  }

  /** The state after the first operand, when it is accepted. */
  function Advance(s: State, e: Encoder, op: string): (r: State)
    requires TablesValid(s) && op != [] && !Rejects(e, op)
    ensures TablesValid(r) && r.diags == s.diags && r.error == s.error
    ensures r.compiled == s.compiled + Encode(e, op, 0, Empty()).value.words
  {
    EncodePlacement(e, op, |s.compiled|, s.relocs, 0, Empty());
    var enc := Encode(e, op, |s.compiled|, s.relocs).value;
    s.(compiled := s.compiled + enc.words, relocs := enc.relocs)
  }

  /** An accepted first operand hands over to the rest of the line. */
  lemma OperandStep(s: State, encs: seq<Encoder>, ops: seq<string>, lnr: nat, position: nat)
    requires TablesValid(s) && |encs| == |ops| && encs != []
    requires forall i :: 0 <= i < |ops| ==> ops[i] != []
    requires !Rejects(encs[0], ops[0])
    ensures EncodeOperands(s, encs, ops, lnr, position) ==
      EncodeOperands(Advance(s, encs[0], ops[0]), encs[1..], ops[1..], lnr, position + 1)
  {
    EncodePlacement(encs[0], ops[0], |s.compiled|, s.relocs, 0, Empty());
  }

  /** When every operand is accepted, the line appends exactly their words
      and reports nothing. */
  lemma {:induction false} OperandsAccepted(s: State, encs: seq<Encoder>, ops: seq<string>, lnr: nat, position: nat)
    requires TablesValid(s) && |encs| == |ops|
    requires forall i :: 0 <= i < |ops| ==> ops[i] != [] && !Rejects(encs[i], ops[i])
    ensures var r := EncodeOperands(s, encs, ops, lnr, position);
      r.compiled == s.compiled + OperandWords(encs, ops) && r.diags == s.diags && r.error == s.error
    decreases |encs|
  {
    if encs != [] {
      assert !Rejects(encs[0], ops[0]);
      OperandStep(s, encs, ops, lnr, position);
      var next := Advance(s, encs[0], ops[0]);
      var w := Encode(encs[0], ops[0], 0, Empty()).value.words;
      assert forall i :: 0 <= i < |ops[1..]| ==> ops[1..][i] == ops[i + 1] && encs[1..][i] == encs[i + 1];
      OperandsAccepted(next, encs[1..], ops[1..], lnr, position + 1);
      AppendAssoc(s.compiled, w, OperandWords(encs[1..], ops[1..]));
    }
  }

  /** The first refused operand, at index `i`, is reported once as operand
      `position + i` with its encoder's message, and ends the line. */
  lemma {:induction false} OperandsRejected(s: State, encs: seq<Encoder>, ops: seq<string>, lnr: nat, position: nat, i: nat)
    requires TablesValid(s) && |encs| == |ops|
    requires forall j :: 0 <= j < |ops| ==> ops[j] != []
    requires i < |encs| && Rejects(encs[i], ops[i])
    requires forall j :: 0 <= j < i ==> !Rejects(encs[j], ops[j])
    ensures var r := EncodeOperands(s, encs, ops, lnr, position);
      r.error && r.diags == s.diags + [Diag(Error, Some(lnr), BadOperand(position + i, Encode(encs[i], ops[i], 0, Empty()).error))]
    decreases |encs|
  {
    if i > 0 {
      OperandStep(s, encs, ops, lnr, position);
      OperandsRejected(Advance(s, encs[0], ops[0]), encs[1..], ops[1..], lnr, position + 1, i - 1);
    } else {
      EncodePlacement(encs[0], ops[0], |s.compiled|, s.relocs, 0, Empty());
    }
  }

  /** On a refused operand the words of the operands before it stay in the
      buffer, and nothing follows them. */
  lemma {:induction false} OperandsRejectedWords(s: State, encs: seq<Encoder>, ops: seq<string>, lnr: nat, position: nat, i: nat)
    requires TablesValid(s) && |encs| == |ops|
    requires forall j :: 0 <= j < |ops| ==> ops[j] != []
    requires i < |encs| && Rejects(encs[i], ops[i])
    requires forall j :: 0 <= j < i ==> !Rejects(encs[j], ops[j])
    ensures EncodeOperands(s, encs, ops, lnr, position).compiled == s.compiled + OperandWords(encs[..i], ops[..i])
    decreases |encs|
  {
    if i > 0 {
      OperandStep(s, encs, ops, lnr, position);
      var w := Encode(encs[0], ops[0], 0, Empty()).value.words;
      OperandsRejectedWords(Advance(s, encs[0], ops[0]), encs[1..], ops[1..], lnr, position + 1, i - 1);
      FirstWords(encs, ops, i);
      AppendAssoc(s.compiled, w, OperandWords(encs[1..][..i - 1], ops[1..][..i - 1]));
    } else {
      EncodePlacement(encs[0], ops[0], |s.compiled|, s.relocs, 0, Empty());
    }
  }

  /** The words of the first `i` operands start with the first operand's. */
  lemma FirstWords(encs: seq<Encoder>, ops: seq<string>, i: nat)
    requires |encs| == |ops| && 0 < i <= |encs|
    requires forall j :: 0 <= j < i ==> ops[j] != [] && !Rejects(encs[j], ops[j])
    ensures OperandWords(encs[..i], ops[..i]) ==
      Encode(encs[0], ops[0], 0, Empty()).value.words + OperandWords(encs[1..][..i - 1], ops[1..][..i - 1])
  {
    assert encs[..i][1..] == encs[1..][..i - 1] && ops[..i][1..] == ops[1..][..i - 1];
  }

  /** Appending word lists associates: the words of a prefix of operands,
      then one more operand's words, are the prefix's words extended. */
  lemma AppendAssoc(a: seq<int>, b: seq<int>, c: seq<int>)
    ensures (a + b) + c == a + (b + c)
  {
  }

  /** Label-loop fault of the `k`-th name: not a digit string, and either not
      an identifier or already bound (earlier, or earlier on this line). */
  predicate LabelFault(names: seq<string>, k: nat, bound: map<string, Label>)
    requires k < |names|
  {
    !IsDigits(names[k]) && (!IsIdentifier(names[k]) || names[k] in bound || names[k] in names[..k])
  }

  /** One iteration of the label loop. */
  function BindLabel(s: State, name: string, lbl: Label): (r: State)
    requires TablesValid(s)
    ensures TablesValid(r)
    ensures r.compiled == s.compiled && r.relocs == s.relocs && s.diags <= r.diags
    ensures r.labels.entries == if IsIdentifier(name) && name !in s.labels.entries
      then s.labels.entries[name := lbl] else s.labels.entries
    ensures r.error <==> s.error || (!IsDigits(name) && (!IsIdentifier(name) || name in s.labels.entries))
    ensures IsDigits(name) ==> r == s
    ensures !IsDigits(name) && !IsIdentifier(name) ==>
      r.diags == s.diags + [Diag(Error, Some(lbl.line), InvalidLabelName(name))]
    ensures !IsDigits(name) && IsIdentifier(name) && name in s.labels.entries ==>
      r.diags == s.diags + [Diag(Error, Some(lbl.line), DuplicateLabel(name, s.labels.entries[name].line))]
    ensures !IsDigits(name) && IsIdentifier(name) && name !in s.labels.entries ==> r.diags == s.diags
  {
    if IsDigits(name) then s
    else if !IsIdentifier(name) then ReportError(s, Some(lbl.line), InvalidLabelName(name))
    else if name in s.labels.entries then
      ReportError(s, Some(lbl.line), DuplicateLabel(name, s.labels.entries[name].line))
    else s.(labels := Put(s.labels, name, lbl))
  }

  /** Binding a label at the current buffer length keeps the invariant. */
  lemma BindLabelInv(s: State, name: string, lbl: Label)
    requires Inv(s) && lbl.ofs == |s.compiled|
    ensures Inv(BindLabel(s, name, lbl))
  {
  }

  /** All label names of one line bind to the same `lbl`; a name already
      bound is an error and keeps its first binding. */
  function BindLabels(s: State, names: seq<string>, lbl: Label): (r: State)
    requires TablesValid(s)
    ensures TablesValid(r)
    ensures r.compiled == s.compiled && r.relocs == s.relocs
    ensures s.diags <= r.diags && (s.error ==> r.error)
    ensures forall n :: n in s.labels.entries ==> n in r.labels.entries && r.labels.entries[n] == s.labels.entries[n]
    decreases |names|
  {
    if names == [] then s
    else BindLabel(BindLabels(s, names[..|names| - 1], lbl), names[|names| - 1], lbl)
  }

  /** The label loop keeps the invariant. */
  lemma {:induction false} BindLabelsInv(s: State, names: seq<string>, lbl: Label)
    requires Inv(s) && lbl.ofs == |s.compiled|
    ensures Inv(BindLabels(s, names, lbl))
    decreases |names|
  {
    if names != [] {
      BindLabelsInv(s, names[..|names| - 1], lbl);
      BindLabelInv(BindLabels(s, names[..|names| - 1], lbl), names[|names| - 1], lbl);
    }
  }

  /** The names a line binds are exactly its identifier labels not bound
      before, and each of them is bound to that line's `lbl`. */
  lemma {:induction false} BindLabelsBinds(s: State, names: seq<string>, lbl: Label)
    requires TablesValid(s)
    ensures var r := BindLabels(s, names, lbl);
      forall n :: n in r.labels.entries <==> n in s.labels.entries || (n in names && IsIdentifier(n))
    ensures var r := BindLabels(s, names, lbl);
      forall n :: n in r.labels.entries && n !in s.labels.entries ==> r.labels.entries[n] == lbl
    decreases |names|
  {
    if names != [] {
      var front := names[..|names| - 1];
      BindLabelsBinds(s, front, lbl);
      assert forall n :: n in names <==> n in front || n == names[|names| - 1];
    }
  }

  /** The label loop raises the error flag exactly when some name is faulty. */
  lemma {:induction false} BindLabelsError(s: State, names: seq<string>, lbl: Label)
    requires TablesValid(s)
    ensures BindLabels(s, names, lbl).error <==>
      s.error || exists k :: 0 <= k < |names| && LabelFault(names, k, s.labels.entries)
    decreases |names|
  {
    if names != [] {
      var front := names[..|names| - 1];
      var last := names[|names| - 1];
      var p := BindLabels(s, front, lbl);
      BindLabelsError(s, front, lbl);
      BindLabelsBinds(s, front, lbl);
      assert LabelFault(names, |names| - 1, s.labels.entries) <==>
        !IsDigits(last) && (!IsIdentifier(last) || last in p.labels.entries) by {
        assert names[..|names| - 1] == front;
      }
      FaultSplit(names, front, s.labels.entries);
    }
  }

  /** Some name of `names` is faulty iff one before the last is, or the last is. */
  lemma FaultSplit(names: seq<string>, front: seq<string>, bound: map<string, Label>)
    requires names != [] && front == names[..|names| - 1]
    ensures (exists k :: 0 <= k < |names| && LabelFault(names, k, bound)) <==>
      (exists k :: 0 <= k < |front| && LabelFault(front, k, bound))
      || LabelFault(names, |names| - 1, bound)
  {
    LabelFaultPrefix(names, bound);
    if exists k :: 0 <= k < |names| && LabelFault(names, k, bound) {
      var k :| 0 <= k < |names| && LabelFault(names, k, bound);
      if k < |front| {
        assert LabelFault(front, k, bound);
      }
    }
    if exists k :: 0 <= k < |front| && LabelFault(front, k, bound) {
      var k :| 0 <= k < |front| && LabelFault(front, k, bound);
      assert LabelFault(names, k, bound);
    }
  }

  /** Dropping the last name does not change the faults of the others. */
  lemma LabelFaultPrefix(names: seq<string>, bound: map<string, Label>)
    requires names != []
    ensures forall k :: 0 <= k < |names| - 1 ==>
      (LabelFault(names[..|names| - 1], k, bound) <==> LabelFault(names, k, bound))
  {
    var front := names[..|names| - 1];
    assert forall k :: 0 <= k < |front| ==> front[k] == names[k] && front[..k] == names[..k];
  }

  /** Redefining a label reports it, citing the line of the first definition. */
  lemma {:induction false} BindLabelsDuplicate(s: State, names: seq<string>, lbl: Label, n: string)
    requires TablesValid(s)
    requires n in names && IsIdentifier(n) && n in s.labels.entries
    ensures Diag(Error, Some(lbl.line), DuplicateLabel(n, s.labels.entries[n].line)) in BindLabels(s, names, lbl).diags
    decreases |names|
  {
    var front := names[..|names| - 1];
    var last := names[|names| - 1];
    var p := BindLabels(s, front, lbl);
    assert names == front + [last];
    if n in front {
      BindLabelsDuplicate(s, front, lbl, n);
    } else {
      assert n == last;
    }
  }

  /** The instruction part of one line: look the mnemonic up, check the
      operand count, then emit the opcode and the encoded operands. */
  function Emit(s: State, lnr: nat, tokens: seq<string>): (r: State)
    requires TablesValid(s)
    requires forall i :: 0 <= i < |tokens| ==> tokens[i] != []
    ensures TablesValid(r)
    ensures s.compiled <= r.compiled && s.diags <= r.diags && (s.error ==> r.error)
    ensures r.labels == s.labels
  {
    if tokens == [] then s
    else
      var op := tokens[0];
      var operands := tokens[1..];
      match Lookup(op)
      case None => ReportError(s, Some(lnr), UnknownInstruction(op))
      case Some(f) =>
        if |operands| != |f.operands| then
          ReportError(s, Some(lnr), WrongOperandCount(op, |f.operands|, |operands|))
        else EncodeOperands(s.(compiled := s.compiled + f.opcode), f.operands, operands, lnr, 1)
  }

  /** The instruction part of a line keeps the invariant. */
  lemma EmitInv(s: State, lnr: nat, tokens: seq<string>)
    requires Inv(s)
    requires forall i :: 0 <= i < |tokens| ==> tokens[i] != []
    ensures Inv(Emit(s, lnr, tokens))
  {
    if tokens != [] {
      var op := tokens[0];
      var operands := tokens[1..];
      match Lookup(op)
      case None =>
      case Some(f) =>
        if |operands| == |f.operands| {
          AppendPreservesInv(s, f.opcode);
          EncodeOperandsInv(s.(compiled := s.compiled + f.opcode), f.operands, operands, lnr, 1);
        }
    }
  }

  /** The names a line can bind: its labels that are identifiers. */
  function BoundNames(line: Line): set<string> {
    set n | n in line.labels && IsIdentifier(n)
  }

  /** One iteration of the source's per-line loop: the labels first, bound
      to the buffer length before the line, then the instruction. */
  function Step(s: State, lnr: nat, line: Line): (r: State)
    requires TablesValid(s)
    ensures TablesValid(r)
    ensures s.compiled <= r.compiled && s.diags <= r.diags && (s.error ==> r.error)
    ensures forall n :: n in s.labels.entries ==> n in r.labels.entries && r.labels.entries[n] == s.labels.entries[n]
  {
    Emit(BindLabels(s, line.labels, Label(|s.compiled|, lnr)), lnr, line.tokens)
  }

  /** One line keeps the invariant. */
  lemma StepInv(s: State, lnr: nat, line: Line)
    requires Inv(s)
    ensures Inv(Step(s, lnr, line))
  {
    BindLabelsInv(s, line.labels, Label(|s.compiled|, lnr));
    EmitInv(BindLabels(s, line.labels, Label(|s.compiled|, lnr)), lnr, line.tokens);
  }

  /** A line binds its new identifier labels to the buffer length before it. */
  lemma StepLabels(s: State, lnr: nat, line: Line)
    requires TablesValid(s)
    ensures var r := Step(s, lnr, line);
      forall n :: n in r.labels.entries <==> n in s.labels.entries || n in BoundNames(line)
    ensures var r := Step(s, lnr, line);
      forall n :: n in r.labels.entries && n !in s.labels.entries ==> r.labels.entries[n] == Label(|s.compiled|, lnr)
  {
    BindLabelsBinds(s, line.labels, Label(|s.compiled|, lnr));
  }

  /** A label redefined on line `lnr` is reported on that line. */
  lemma StepDuplicate(s: State, lnr: nat, line: Line, n: string)
    requires TablesValid(s)
    requires n in BoundNames(line) && n in s.labels.entries
    ensures Diag(Error, Some(lnr), DuplicateLabel(n, s.labels.entries[n].line)) in Step(s, lnr, line).diags
  {
    BindLabelsDuplicate(s, line.labels, Label(|s.compiled|, lnr), n);
  }

  /** A line with no instruction emits nothing; an unknown mnemonic or a
      wrong operand count emits nothing and is an error, reported on that
      line. */
  lemma EmitRejects(s: State, lnr: nat, tokens: seq<string>)
    requires TablesValid(s)
    requires forall i :: 0 <= i < |tokens| ==> tokens[i] != []
    ensures tokens == [] ==> Emit(s, lnr, tokens) == s
    ensures tokens != [] && Lookup(tokens[0]).None? ==>
      Emit(s, lnr, tokens) == ReportError(s, Some(lnr), UnknownInstruction(tokens[0]))
    ensures tokens != [] && Lookup(tokens[0]).Some? && |tokens| - 1 != |Lookup(tokens[0]).value.operands| ==>
      var r := Emit(s, lnr, tokens);
      r.compiled == s.compiled && r.error &&
      Diag(Error, Some(lnr), WrongOperandCount(tokens[0], |Lookup(tokens[0]).value.operands|, |tokens| - 1)) in r.diags
  {
  }

  /** A line whose operands are all accepted appends its opcode words and
      then the operands' words, in operand order, and reports nothing. */
  lemma EmitAccepted(s: State, lnr: nat, tokens: seq<string>)
    requires TablesValid(s)
    requires forall i :: 0 <= i < |tokens| ==> tokens[i] != []
    requires tokens != [] && Lookup(tokens[0]).Some?
    requires |tokens| - 1 == |Lookup(tokens[0]).value.operands|
    requires forall i :: 0 <= i < |tokens| - 1 ==> !Rejects(Lookup(tokens[0]).value.operands[i], tokens[i + 1])
    ensures var r, f := Emit(s, lnr, tokens), Lookup(tokens[0]).value;
      r.compiled == s.compiled + f.opcode + OperandWords(f.operands, tokens[1..])
      && r.diags == s.diags && r.error == s.error
  {
    var f := Lookup(tokens[0]).value;
    var ops := tokens[1..];
    assert forall i :: 0 <= i < |ops| ==> ops[i] == tokens[i + 1];
    OperandsAccepted(s.(compiled := s.compiled + f.opcode), f.operands, ops, lnr, 1);
  }

  /** The whole first pass, as a fold over the lines (numbered from 1). */
  function Run(lines: seq<Line>): (s: State)
    ensures TablesValid(s)
    decreases |lines|
  {
    if lines == [] then Init()
    else Step(Run(lines[..|lines| - 1]), |lines|, lines[|lines| - 1])
  }

  /** The first pass keeps the invariant from the empty state on. */
  lemma {:induction false} RunInv(lines: seq<Line>)
    ensures Inv(Run(lines))
    decreases |lines|
  {
    if lines != [] {
      RunInv(lines[..|lines| - 1]);
      StepInv(Run(lines[..|lines| - 1]), |lines|, lines[|lines| - 1]);
    }
  }

  /** Later lines only extend what earlier lines produced. */
  lemma {:induction false} RunPrefix(lines: seq<Line>, k: nat)
    requires k <= |lines|
    ensures var p, r := Run(lines[..k]), Run(lines);
      p.compiled <= r.compiled && p.diags <= r.diags && (p.error ==> r.error)
    decreases |lines|
  {
    if k < |lines| {
      var front := lines[..|lines| - 1];
      assert front[..k] == lines[..k];
      RunPrefix(front, k);
    } else {
      assert lines[..k] == lines;
    }
  }

  /** A label, once bound, keeps its binding to the end of the pass. */
  lemma {:induction false} RunKeepsLabels(lines: seq<Line>, k: nat)
    requires k <= |lines|
    ensures var p, r := Run(lines[..k]), Run(lines);
      forall n :: n in p.labels.entries ==> n in r.labels.entries && r.labels.entries[n] == p.labels.entries[n]
    decreases |lines|
  {
    if k < |lines| {
      var front := lines[..|lines| - 1];
      assert front[..k] == lines[..k];
      RunKeepsLabels(front, k);
    } else {
      assert lines[..k] == lines;
    }
  }

  /** Label `n` records the line that defined it, and its offset is the
      number of words emitted by the lines before that one. */
  ghost predicate DefinedAt(lines: seq<Line>, n: string)
    requires n in Run(lines).labels.entries
  {
    var lbl := Run(lines).labels.entries[n];
    1 <= lbl.line <= |lines| && n in lines[lbl.line - 1].labels &&
    lbl.ofs == |Run(lines[..lbl.line - 1]).compiled|
  }

  /** Every label of the first pass is defined where `DefinedAt` says. */
  lemma {:induction false} LabelOffset(lines: seq<Line>, n: string)
    requires n in Run(lines).labels.entries
    ensures DefinedAt(lines, n)
    decreases |lines|
  {
    var front := lines[..|lines| - 1];
    if n in Run(front).labels.entries {
      LabelOffset(front, n);
      KeptLabel(lines, front, n);
    } else {
      NewLabel(lines, front, n);
    }
  }

  /** A label bound before the last line keeps its binding, and with it
      its definition line and offset. */
  lemma {:induction false} KeptLabel(lines: seq<Line>, front: seq<Line>, n: string)
    requires lines != [] && front == lines[..|lines| - 1]
    requires n in Run(front).labels.entries && DefinedAt(front, n)
    ensures n in Run(lines).labels.entries && DefinedAt(lines, n)
  {
    var lbl := Run(front).labels.entries[n];
    KeptBinding(lines, front, n);
    PrefixRun(lines, front, lbl.line - 1);
    assert Run(lines).labels.entries[n] == lbl;
  }

  /** The lines before `j` are the same whether read from `lines` or from
      its prefix `front`. */
  lemma {:induction false} PrefixRun(lines: seq<Line>, front: seq<Line>, j: nat)
    requires lines != [] && front == lines[..|lines| - 1] && j < |front|
    ensures front[j] == lines[j] && Run(front[..j]) == Run(lines[..j])
  {
    assert front[..j] == lines[..j];
  }

  /** The last line does not disturb a binding made before it. */
  lemma {:induction false} KeptBinding(lines: seq<Line>, front: seq<Line>, n: string)
    requires lines != [] && front == lines[..|lines| - 1]
    requires n in Run(front).labels.entries
    ensures n in Run(lines).labels.entries && Run(lines).labels.entries[n] == Run(front).labels.entries[n]
  {
    RunUnfold(lines);
  }

  /** A label first bound on the last line points at the end of the
      previous lines' output. */
  lemma {:induction false} NewLabel(lines: seq<Line>, front: seq<Line>, n: string)
    requires lines != [] && front == lines[..|lines| - 1]
    requires n in Run(lines).labels.entries && n !in Run(front).labels.entries
    ensures DefinedAt(lines, n)
  {
    RunUnfold(lines);
    StepLabels(Run(front), |lines|, lines[|lines| - 1]);
    assert Run(lines).labels.entries[n] == Label(|Run(front).compiled|, |lines|);
  }

  /** The pass over non-empty `lines` is its last step after the pass over
      the others. */
  lemma {:induction false} RunUnfold(lines: seq<Line>)
    requires lines != []
    ensures Run(lines) == Step(Run(lines[..|lines| - 1]), |lines|, lines[|lines| - 1])
  {
  }

  /** Line `k + 1` binds each name it can bind. */
  lemma {:induction false} LabelBoundAt(lines: seq<Line>, k: nat, n: string)
    requires k < |lines| && n in BoundNames(lines[k])
    ensures n in Run(lines[..k + 1]).labels.entries
  {
    var p := lines[..k + 1];
    assert p[|p| - 1] == lines[k];
    LastStepBinds(p, p[..|p| - 1], n);
    UnfoldLabel(p, p[..|p| - 1], n);
  }

  /** The last step binds each name its line can bind. */
  lemma {:induction false} LastStepBinds(lines: seq<Line>, front: seq<Line>, n: string)
    requires lines != [] && front == lines[..|lines| - 1] && n in BoundNames(lines[|lines| - 1])
    ensures n in Step(Run(front), |lines|, lines[|lines| - 1]).labels.entries
  {
    StepLabels(Run(front), |lines|, lines[|lines| - 1]);
  }

  /** A name bound by the last step is bound by the pass. */
  lemma {:induction false} UnfoldLabel(lines: seq<Line>, front: seq<Line>, n: string)
    requires lines != [] && front == lines[..|lines| - 1]
    requires n in Step(Run(front), |lines|, lines[|lines| - 1]).labels.entries
    ensures n in Run(lines).labels.entries
  {
    RunUnfold(lines);
  }

  /** Line `k + 1` reports each name it binds that an earlier line bound. */
  lemma {:induction false} DuplicateAt(lines: seq<Line>, k: nat, n: string)
    requires k < |lines| && n in BoundNames(lines[k]) && n in Run(lines[..k]).labels.entries
    ensures Diag(Error, Some(k + 1), DuplicateLabel(n, Run(lines[..k]).labels.entries[n].line)) in Run(lines[..k + 1]).diags
  {
    var p := lines[..k + 1];
    SliceOfSlice(lines, k);
    LastDuplicate(p, p[..|p| - 1], n);
  }

  /** The first `k` of the first `k + 1` lines are the first `k` lines. */
  lemma {:induction false} SliceOfSlice(lines: seq<Line>, k: nat)
    requires k < |lines|
    ensures lines[..k + 1][..k] == lines[..k] && lines[..k + 1][k] == lines[k]
  {
  }

  /** The last line reports each name it binds again. */
  lemma {:induction false} LastDuplicate(lines: seq<Line>, front: seq<Line>, n: string)
    requires lines != [] && front == lines[..|lines| - 1]
    requires n in BoundNames(lines[|lines| - 1]) && n in Run(front).labels.entries
    ensures Diag(Error, Some(|lines|), DuplicateLabel(n, Run(front).labels.entries[n].line)) in Run(lines).diags
  {
    RunUnfold(lines);
    StepDuplicate(Run(front), |lines|, lines[|lines| - 1], n);
  }

  /** A binding made by the lines of `front` survives the rest of `lines`. */
  lemma {:induction false} KeepsBinding(lines: seq<Line>, front: seq<Line>, n: string)
    requires front <= lines && n in Run(front).labels.entries
    ensures n in Run(lines).labels.entries && Run(lines).labels.entries[n] == Run(front).labels.entries[n]
  {
    assert lines[..|front|] == front;
    RunKeepsLabels(lines, |front|);
  }

  /** A name line `a + 1` can bind is bound at the end of the pass. */
  lemma {:induction false} BoundAtEnd(lines: seq<Line>, a: nat, n: string)
    requires a < |lines| && n in BoundNames(lines[a])
    ensures n in Run(lines).labels.entries
  {
    LabelBoundAt(lines, a, n);
    KeepsBinding(lines, lines[..a + 1], n);
  }

  /** A name line `a + 1` can bind is bound when line `b + 1` is reached. */
  lemma {:induction false} BoundBefore(lines: seq<Line>, a: nat, b: nat, n: string)
    requires a < b <= |lines| && n in BoundNames(lines[a])
    ensures n in Run(lines[..b]).labels.entries
  {
    var q := lines[..b];
    assert q[a] == lines[a];
    BoundAtEnd(q, a, n);
  }

  /** A name line `k + 1` binds again sets the error flag there. */
  lemma {:induction false} DuplicateErrs(lines: seq<Line>, k: nat, n: string)
    requires k < |lines| && n in BoundNames(lines[k]) && n in Run(lines[..k]).labels.entries
    ensures Run(lines[..k + 1]).error
  {
    DuplicateAt(lines, k, n);
    RunInv(lines[..k + 1]);
    ErrorReported(Run(lines[..k + 1]).diags, Diag(Error, Some(k + 1), DuplicateLabel(n, Run(lines[..k]).labels.entries[n].line)));
  }

  /** An error raised by the first `k + 1` lines is still raised at the
      end. */
  lemma {:induction false} ErrorPersists(lines: seq<Line>, k: nat)
    requires k < |lines| && Run(lines[..k + 1]).error
    ensures Run(lines).error
  {
    RunPrefix(lines, k + 1);
  }

  /** A name bound on line `a + 1` and again on line `b + 1` sets the error
      flag on line `b + 1`. */
  lemma {:induction false} RedefinedErrs(lines: seq<Line>, a: nat, b: nat, n: string)
    requires a < b < |lines| && n in BoundNames(lines[a]) && n in BoundNames(lines[b])
    ensures Run(lines[..b + 1]).error
  {
    BoundBefore(lines, a, b, n);
    DuplicateErrs(lines, b, n);
  }

  /** A label defined on two lines makes the first pass fail. */
  lemma {:induction false} DuplicateStops(lines: seq<Line>, a: nat, b: nat, n: string)
    requires a < b < |lines| && n in BoundNames(lines[a]) && n in BoundNames(lines[b])
    ensures Run(lines).error
  {
    RedefinedErrs(lines, a, b, n);
    ErrorPersists(lines, b);
  }

  /** Diagnostics for labels no relocation refers to, in definition order. */
  function UnusedWarnings(labels: LabelTable, relocs: RelocTable, names: seq<string>): (ws: seq<Diag>)
    requires forall i :: 0 <= i < |names| ==> names[i] in labels.entries
    ensures forall i :: 0 <= i < |ws| ==> ws[i].severity == Warning && ws[i].msg.UnusedLabel?
    ensures forall n :: n in labels.entries ==>
      (Diag(Warning, Some(labels.entries[n].line), UnusedLabel(n)) in ws <==> n in names && n !in relocs.entries)
    decreases |names|
  {
    if names == [] then []
    else
      var rest := UnusedWarnings(labels, relocs, names[1..]);
      var n := names[0];
      if n in relocs.entries then rest
      else [Diag(Warning, Some(labels.entries[n].line), UnusedLabel(n))] + rest
  }

  /** The unused-label check only warns: buffer, tables and error flag are
      untouched. */
  function WarnUnused(s: State): (r: State)
    requires Valid(s.labels)
    ensures Inv(s) ==> Inv(r)
    ensures r.compiled == s.compiled && r.labels == s.labels && r.relocs == s.relocs
    ensures r.error == s.error && HasError(r.diags) == HasError(s.diags)
    ensures s.diags <= r.diags
    ensures forall i :: |s.diags| <= i < |r.diags| ==> r.diags[i].severity == Warning
    ensures forall n :: n in s.labels.entries ==>
      ((Diag(Warning, Some(s.labels.entries[n].line), UnusedLabel(n)) in r.diags[|s.diags|..])
       <==> n !in s.relocs.entries)
  {
    var ws := UnusedWarnings(s.labels, s.relocs, s.labels.keys);
    var r := s.(diags := s.diags + ws);
    assert r.diags[|s.diags|..] == ws;
    assert HasError(r.diags) == HasError(s.diags) by {
      if HasError(r.diags) {
        var i :| 0 <= i < |r.diags| && r.diags[i].severity == Error;
        assert i < |s.diags|;
      }
    }
    r
  }
}

=== FILE: pass2.dfy ===
/** Pass 2: for every relocation name, in the order the names were first
    referenced, write the label's offset into each recorded site; a name
    with no label is an error. */
module Pass2 {
  import opened Wrappers
  import opened Tables
  import opened AsmState

  /** `for ofs in offsets: compiled[ofs] = lblofs`. */
  function Patch(words: seq<int>, sites: seq<nat>, v: int): (r: seq<int>)
    requires forall k :: 0 <= k < |sites| ==> sites[k] < |words|
    ensures |r| == |words|
    ensures forall i :: 0 <= i < |r| ==> r[i] == if i in sites then v else words[i]
    decreases |sites|
  {
    if sites == [] then words
    else Patch(words[sites[0] := v], sites[1..], v)
  }

  /** What Pass 2 needs of its input: well-formed tables, every site inside
      the buffer, and `names` drawn from the relocation table. */
  ghost predicate Ready(s: State, names: seq<string>) {
    && TablesValid(s) && SitesInRange(s.compiled, s.relocs)
    && forall i :: 0 <= i < |names| ==> names[i] in s.relocs.entries
  }

  /** One iteration of the resolution loop: report `n` when it has no
      label, otherwise patch its sites with the label's offset. */
  function ResolveOne(s: State, n: string): (t: State)
    requires TablesValid(s) && SitesInRange(s.compiled, s.relocs) && n in s.relocs.entries
    ensures |t.compiled| == |s.compiled| && t.labels == s.labels && t.relocs == s.relocs
    ensures t.diags == s.diags + (if n in s.labels.entries then [] else [Diag(Error, None, UndefinedLabel(n))])
    ensures t.error <==> s.error || n !in s.labels.entries
  {
    if n !in s.labels.entries then ReportError(s, None, UndefinedLabel(n))
    else s.(compiled := Patch(s.compiled, s.relocs.entries[n], s.labels.entries[n].ofs))
  }

  /** The resolution loop over `names`, first to last. */
  function Resolve(s: State, names: seq<string>): (r: State)
    requires Ready(s, names)
    ensures |r.compiled| == |s.compiled| && r.labels == s.labels && r.relocs == s.relocs
    ensures s.diags <= r.diags && (s.error ==> r.error)
    decreases |names|
  {
    if names == [] then s
    else Resolve(ResolveOne(s, names[0]), names[1..])
  }

  /** Site `i` belongs to no defined name of `names`. */
  ghost predicate Unclaimed(s: State, names: seq<string>, i: nat) {
    forall j :: 0 <= j < |names| && names[j] in s.relocs.entries && names[j] in s.labels.entries ==>
      i !in s.relocs.entries[names[j]]
  }

  /** A word that is no site of any defined name keeps its value. */
  lemma {:induction false} ResolveUntouched(s: State, names: seq<string>, i: nat)
    requires Ready(s, names) && i < |s.compiled| && Unclaimed(s, names, i)
    ensures Resolve(s, names).compiled[i] == s.compiled[i]
    decreases |names|
  {
    if names != [] {
      var n := names[0];
      var t := ResolveOne(s, n);
      assert Unclaimed(t, names[1..], i) by {
        assert forall j :: 0 <= j < |names[1..]| ==> names[1..][j] == names[j + 1];
      }
      ResolveUntouched(t, names[1..], i);
    }
  }

  /** Each site of a defined name ends up holding that label's offset, given
      distinct names whose sites are disjoint. */
  lemma {:induction false} ResolvePatched(s: State, names: seq<string>, j: nat, k: nat)
    requires Ready(s, names) && SitesDisjoint(s.relocs)
    requires forall a, b :: 0 <= a < b < |names| ==> names[a] != names[b]
    requires j < |names| && names[j] in s.labels.entries && k < |s.relocs.entries[names[j]]|
    ensures Resolve(s, names).compiled[s.relocs.entries[names[j]][k]] == s.labels.entries[names[j]].ofs
    decreases |names|
  {
    var n := names[0];
    var t := ResolveOne(s, n);
    assert forall a :: 0 <= a < |names[1..]| ==> names[1..][a] == names[a + 1];
    if j == 0 {
      var site := s.relocs.entries[n][k];
      assert t.compiled[site] == s.labels.entries[n].ofs;
      assert Unclaimed(t, names[1..], site) by {
        forall a | 0 <= a < |names[1..]| && names[1..][a] in t.relocs.entries
          ensures site !in t.relocs.entries[names[1..][a]]
        {
          assert names[1..][a] != n;
        }
      }
      ResolveUntouched(t, names[1..], site);
    } else {
      ResolvePatched(t, names[1..], j - 1, k);
    }
  }

  /** Pass 2 raises the error flag exactly when some name has no label. */
  lemma {:induction false} ResolveError(s: State, names: seq<string>)
    requires Ready(s, names)
    ensures Resolve(s, names).error <==> s.error || exists j :: 0 <= j < |names| && names[j] !in s.labels.entries
    decreases |names|
  {
    if names != [] {
      var n := names[0];
      var t := ResolveOne(s, n);
      assert forall a :: 0 <= a < |names[1..]| ==> names[1..][a] == names[a + 1];
      ResolveError(t, names[1..]);
      assert names[0] !in s.labels.entries ==> exists j :: 0 <= j < |names| && names[j] !in s.labels.entries;
    }
  }

  /** The diagnostics Pass 2 prints for `names`: one undefined-label error,
      with no line number, per name without a label, in order. */
  function UndefinedReports(labels: map<string, Label>, names: seq<string>): seq<Diag>
    decreases |names|
  {
    if names == [] then []
    else
      var rest := UndefinedReports(labels, names[1..]);
      if names[0] in labels then rest else [Diag(Error, None, UndefinedLabel(names[0]))] + rest
  }

  /** Every report is an undefined-label error without a line number for a
      name of `names`; a name is reported exactly when it has no label, and
      nothing is reported exactly when every name has one. */
  lemma {:induction false} ReportsExactly(labels: map<string, Label>, names: seq<string>)
    ensures var ds := UndefinedReports(labels, names);
      forall i :: 0 <= i < |ds| ==>
        ds[i].severity == Error && ds[i].line == None && ds[i].msg.UndefinedLabel? &&
        ds[i].msg.name in names && ds[i].msg.name !in labels
    ensures forall n :: Diag(Error, None, UndefinedLabel(n)) in UndefinedReports(labels, names) <==>
      n in names && n !in labels
    ensures UndefinedReports(labels, names) == [] <==> forall j :: 0 <= j < |names| ==> names[j] in labels
    decreases |names|
  {
    if names != [] {
      ReportsExactly(labels, names[1..]);
      assert forall n :: n in names <==> n == names[0] || n in names[1..];
      assert forall j :: 1 <= j < |names| ==> names[j] == names[1..][j - 1];
    }
  }

  /** Pass 2 appends exactly the undefined-label reports to the diagnostics. */
  lemma {:induction false} ResolveDiags(s: State, names: seq<string>)
    requires Ready(s, names)
    ensures Resolve(s, names).diags == s.diags + UndefinedReports(s.labels.entries, names)
    decreases |names|
  {
    if names != [] {
      var n := names[0];
      var t := ResolveOne(s, n);
      var rest := UndefinedReports(s.labels.entries, names[1..]);
      assert Ready(t, names[1..]) by {
        assert forall a :: 0 <= a < |names[1..]| ==> names[1..][a] == names[a + 1];
      }
      ResolveDiags(t, names[1..]);
      if n !in s.labels.entries {
        var d := Diag(Error, None, UndefinedLabel(n));
        assert UndefinedReports(s.labels.entries, names) == [d] + rest;
        assert (s.diags + [d]) + rest == s.diags + ([d] + rest);
      }
    }
  }

  /** Pass 2 proper: resolve every relocation name. */
  function ResolveAll(s: State): (r: State)
    requires TablesValid(s) && SitesInRange(s.compiled, s.relocs)
    ensures |r.compiled| == |s.compiled| && r.labels == s.labels && r.relocs == s.relocs
    ensures s.diags <= r.diags && (s.error ==> r.error)
  {
    Resolve(s, s.relocs.keys)
  }

  /** Every site of a defined name holds that label's offset after Pass 2. */
  lemma {:induction false} PatchedSite(s: State, n: string, k: nat)
    requires Inv(s) && n in s.relocs.entries && n in s.labels.entries && k < |s.relocs.entries[n]|
    ensures ResolveAll(s).compiled[s.relocs.entries[n][k]] == s.labels.entries[n].ofs
  {
    var names := s.relocs.keys;
    var j :| 0 <= j < |names| && names[j] == n;
    ResolvePatched(s, names, j, k);
  }

  /** A site of a name with no label keeps its placeholder. */
  lemma {:induction false} UndefinedSite(s: State, n: string, k: nat)
    requires Inv(s) && n in s.relocs.entries && n !in s.labels.entries && k < |s.relocs.entries[n]|
    ensures ResolveAll(s).compiled[s.relocs.entries[n][k]] == 0
  {
    var site := s.relocs.entries[n][k];
    assert Unclaimed(s, s.relocs.keys, site) by {
      forall j | 0 <= j < |s.relocs.keys| && s.relocs.keys[j] in s.relocs.entries && s.relocs.keys[j] in s.labels.entries
        ensures site !in s.relocs.entries[s.relocs.keys[j]]
      {
        assert s.relocs.keys[j] != n;
      }
    }
    ResolveUntouched(s, s.relocs.keys, site);
  }

  /** A word at no site of any name keeps its Pass 1 value. */
  lemma {:induction false} UntouchedSite(s: State, i: nat)
    requires Inv(s) && i < |s.compiled|
    requires forall n :: n in s.relocs.entries ==> i !in s.relocs.entries[n]
    ensures ResolveAll(s).compiled[i] == s.compiled[i]
  {
    ResolveUntouched(s, s.relocs.keys, i);
  }
}

=== FILE: preprocess.dfy ===
/** Line preprocessing: drop the line terminator, cut the `//` comment, split
    the label names off at the last `:`, and split the instruction text into
    a mnemonic and its operands. */
module Preprocessor {
  import opened Text

  /** The label names of a line (empty when there is no label part) and its
      whitespace-separated tokens: mnemonic first, then the operands. */
  datatype ParsedLine = ParsedLine(labels: seq<string>, tokens: seq<string>)

  /** A parsed line as preprocessing produces it: no token is empty. */
  type Line = p: ParsedLine | forall i :: 0 <= i < |p.tokens| ==> p.tokens[i] != []
    witness ParsedLine([], [])

  /** The code of a line: no terminator, no comment, no surrounding blanks. */
  function CodePart(raw: string): string {
    Strip(StripComment(StripNewlines(raw)))
  }

  function StripAll(pieces: seq<string>): (r: seq<string>)
    ensures |r| == |pieces|
    ensures forall i :: 0 <= i < |r| ==> r[i] == Strip(pieces[i])
  {
    seq(|pieces|, i requires 0 <= i < |pieces| => Strip(pieces[i]))
  }

  /** The label names in the text before the last `:`, each stripped. */
  function LabelNames(head: string): seq<string> {
    var labelText := Strip(head);
    if labelText == [] then [] else StripAll(Split(labelText, ':'))
  }

  /** The whitespace-separated tokens of the instruction text. */
  function Tokens(instr: string): (ts: seq<string>)
    ensures forall i :: 0 <= i < |ts| ==> ts[i] != [] && NoSpace(ts[i])
  {
    SplitWhitespace(Strip(instr))
  }

  /** One raw source line, preprocessed: the names before its last `:` and
      the tokens after it. */
  function Preprocess(raw: string): (p: ParsedLine)
    ensures forall i :: 0 <= i < |p.tokens| ==> p.tokens[i] != [] && NoSpace(p.tokens[i])
    ensures ':' !in CodePart(raw) ==> p.labels == []
  {
    var parts := RPartition(CodePart(raw), ':');
    ParsedLine(LabelNames(parts.0), Tokens(parts.1))
  }

  /** Every line of a source file, preprocessed; the assembler's passes
      consume lines in this form. */
  function ParseAll(source: seq<string>): (lines: seq<Line>)
    ensures |lines| == |source|
    ensures forall i :: 0 <= i < |source| ==> lines[i] == Preprocess(source[i])
  {
    seq(|source|, i requires 0 <= i < |source| => Preprocess(source[i]))
  }

  /** No label name contains `:`: the label part is split at every colon. */
  lemma LabelNamesColonFree(raw: string)
    ensures forall i :: 0 <= i < |Preprocess(raw).labels| ==> ':' !in Preprocess(raw).labels[i]
  {
    var labelText := Strip(RPartition(CodePart(raw), ':').0);
    if labelText != [] {
      var pieces := Split(labelText, ':');
      var names := StripAll(pieces);
      assert Preprocess(raw).labels == names;
      forall i | 0 <= i < |names| ensures ':' !in names[i] {
        StripKeepsOut(pieces[i], ':');
      }
    }
  }

  /** No token contains `:`: the instruction text starts after the last
      colon. */
  lemma TokensColonFree(raw: string)
    ensures forall i :: 0 <= i < |Preprocess(raw).tokens| ==> ':' !in Preprocess(raw).tokens[i]
  {
    var instr := RPartition(CodePart(raw), ':').1;
    StripKeepsOut(instr, ':');
    SplitWhitespaceChars(Strip(instr), ':');
  }

  /** A line written in the source grammar, `l1:...:ln:` followed by the
      space-separated tokens. */
  function Render(labels: seq<string>, tokens: seq<string>): string {
    (if labels == [] then [] else Join(labels, ':') + ":") + Join(tokens, ' ')
  }

  /** A token that can be written in a line and read back unchanged. */
  predicate PlainToken(t: string) {
    t != [] && NoSpace(t) && ':' !in t && '/' !in t
  }

  /** Preprocessing inverts `Render`: it recovers every label name and every
      token of a line written in the source grammar. */
  lemma PreprocessRender(labels: seq<string>, tokens: seq<string>)
    requires forall i :: 0 <= i < |labels| ==> IsIdentifier(labels[i])
    requires forall i :: 0 <= i < |tokens| ==> PlainToken(tokens[i])
    ensures Preprocess(Render(labels, tokens)) == ParsedLine(labels, tokens)
  {
    TokenPart(tokens);
    if labels != [] {
      RenderWithLabels(labels, tokens);
    } else {
      RenderWithoutLabels(labels, tokens);
    }
  }

  /** A rendered line without labels preprocesses back to its tokens. */
  lemma RenderWithoutLabels(labels: seq<string>, tokens: seq<string>)
    requires labels == []
    requires forall i :: 0 <= i < |tokens| ==> PlainToken(tokens[i])
    ensures Preprocess(Render(labels, tokens)) == ParsedLine(labels, tokens)
  {
    TokenPart(tokens);
    assert Render(labels, tokens) == Join(tokens, ' ');
    CodeUnchanged(Join(tokens, ' '));
    NoColon(Join(tokens, ' '));
  }

  /** A line whose code has no colon has no labels; its tokens are the
      words of its code. */
  lemma NoColon(raw: string)
    requires ':' !in CodePart(raw)
    ensures Preprocess(raw) == ParsedLine([], SplitWhitespace(CodePart(raw)))
  {
    var code := CodePart(raw);
    assert RPartition(code, ':') == ([], code);
    StripUnchanged(code);
  }

  /** A rendered line with labels preprocesses back to its labels and
      tokens. */
  lemma RenderWithLabels(labels: seq<string>, tokens: seq<string>)
    requires labels != []
    requires forall i :: 0 <= i < |labels| ==> IsIdentifier(labels[i])
    requires forall i :: 0 <= i < |tokens| ==> PlainToken(tokens[i])
    requires var t := Join(tokens, ' ');
      && (t == [] || (!IsSpace(t[0]) && !IsSpace(t[|t| - 1])))
      && ':' !in t && '/' !in t && SplitWhitespace(t) == tokens
    ensures Preprocess(Render(labels, tokens)) == ParsedLine(labels, tokens)
  {
    LabelPart(labels);
    SplitAtLastColon(Join(labels, ':'), Join(tokens, ' '));
  }

  /** A line `head:tail` whose tail has no colon: the names come from the
      head and the tokens from the tail. */
  lemma SplitAtLastColon(head: string, tail: string)
    requires head != [] && !IsSpace(head[0]) && '/' !in head
    requires tail == [] || (!IsSpace(tail[0]) && !IsSpace(tail[|tail| - 1]))
    requires ':' !in tail && '/' !in tail
    ensures Preprocess(head + [':'] + tail) == ParsedLine(LabelNames(head), SplitWhitespace(tail))
  {
    var raw := head + [':'] + tail;
    assert '/' !in raw;
    assert raw[0] == head[0];
    if tail != [] {
      assert raw[|raw| - 1] == tail[|tail| - 1];
    }
    CodeUnchanged(raw);
    var (h, i) := RPartition(raw, ':');
    LastSeparatorUnique(h, i, head, tail, ':');
    StripUnchanged(tail);
  }

  /** Joined plain tokens contain no `:` or `/`, have no blank at either end,
      and split back into the same tokens. */
  lemma TokenPart(tokens: seq<string>)
    requires forall i :: 0 <= i < |tokens| ==> PlainToken(tokens[i])
    ensures var t := Join(tokens, ' ');
      && (t == [] || (!IsSpace(t[0]) && !IsSpace(t[|t| - 1])))
      && ':' !in t && '/' !in t && SplitWhitespace(t) == tokens
  {
    JoinKeepsOut(tokens, ' ', ':');
    JoinKeepsOut(tokens, ' ', '/');
    if tokens != [] {
      JoinStartsWithFirst(tokens, ' ');
      JoinEndsWithLast(tokens, ' ');
    }
    SplitWhitespaceJoin(tokens);
  }

  /** Joined identifiers contain no `/`, start and end with a non-space, and
      split back into the same names. */
  lemma LabelPart(labels: seq<string>)
    requires labels != []
    requires forall i :: 0 <= i < |labels| ==> IsIdentifier(labels[i])
    ensures var j := Join(labels, ':');
      && j != [] && !IsSpace(j[0]) && !IsSpace(j[|j| - 1]) && '/' !in j
      && LabelNames(j) == labels
  {
    var j := Join(labels, ':');
    IdentifiersJoin(labels);
    StripUnchanged(j);
    SplitJoin(labels, ':');
    assert Split(j, ':') == labels;
    StripIdentifiers(labels);
    assert LabelNames(j) == StripAll(Split(j, ':'));
  }

  /** Identifiers contain no `:` or `/`, so neither does their join. */
  lemma IdentifiersJoin(labels: seq<string>)
    requires labels != []
    requires forall i :: 0 <= i < |labels| ==> IsIdentifier(labels[i])
    ensures forall i :: 0 <= i < |labels| ==> ':' !in labels[i]
    ensures var j := Join(labels, ':');
      j != [] && !IsSpace(j[0]) && !IsSpace(j[|j| - 1]) && '/' !in j
  {
    forall i | 0 <= i < |labels| ensures '/' !in labels[i] && ':' !in labels[i] {
      assert forall k :: 0 <= k < |labels[i]| ==> IsIdentPart(labels[i][k]);
    }
    JoinKeepsOut(labels, ':', '/');
    JoinStartsWithFirst(labels, ':');
    JoinEndsWithLast(labels, ':');
  }

  /** Identifiers have no blanks to strip. */
  lemma StripIdentifiers(labels: seq<string>)
    requires forall i :: 0 <= i < |labels| ==> IsIdentifier(labels[i])
    ensures StripAll(labels) == labels
  {
    forall i | 0 <= i < |labels| ensures Strip(labels[i]) == labels[i] {
      StripUnchanged(labels[i]);
    }
  }

  /** A line without `/`, terminator or surrounding blanks is all code. */
  lemma CodeUnchanged(raw: string)
    requires '/' !in raw
    requires raw == [] || (!IsSpace(raw[0]) && !IsSpace(raw[|raw| - 1]))
    ensures CodePart(raw) == raw
  {
    assert StripNewlines(raw) == raw;
    assert StripComment(raw) == raw;
    StripUnchanged(raw);
  }

  /** Everything from the first `//` on is ignored: `code` holds no `//`
      and does not end in `/`, so the appended `//` is the first one. */
  lemma CommentIgnored(code: string, comment: string)
    requires NoCommentMark(code)
    requires code == [] || (code[|code| - 1] != '/' && !IsNewline(code[|code| - 1]))
    ensures Preprocess(code + "//" + comment) == Preprocess(code)
  {
    var raw := code + "//" + comment;
    StripNewlinesAppend(code + "//", comment);
    var x := code + "//" + StripNewlines(comment);
    assert StripNewlines(raw) == x;
    assert CommentStart(x) == |code| by {
      assert x[|code|] == '/' && x[|code| + 1] == '/';
      assert x[..|code|] == code;
    }
    assert StripComment(x) == code;
    assert StripComment(code) == code;
  }
}

=== FILE: tables.dfy ===
/** The assembler's two symbol tables. Both are Python dicts, so iteration
    follows insertion order; an `OMap` keeps that order next to the map. */
module Tables {

  /** A string-keyed map that remembers the order in which keys were first
      inserted. */
  datatype OMap<V> = OMap(keys: seq<string>, entries: map<string, V>)

  /** The key list has no repeats and holds exactly the map's keys. */
  ghost predicate Valid<V>(m: OMap<V>) {
    && (forall i, j :: 0 <= i < j < |m.keys| ==> m.keys[i] != m.keys[j])
    && (forall k :: k in m.entries <==> k in m.keys)
  }

  /** A new, empty dict. */
  function Empty<V>(): (m: OMap<V>)
    ensures Valid(m) && m.entries == map[]
  {
    OMap([], map[])
  }

  /** `d[k] = v`: a new key goes to the end of the order, an existing one
      keeps its place. */
  function Put<V>(m: OMap<V>, k: string, v: V): (r: OMap<V>)
    requires Valid(m)
    ensures Valid(r)
    ensures r.entries == m.entries[k := v]
    ensures m.keys <= r.keys
    ensures |r.keys| == |m.keys| + (if k in m.entries then 0 else 1)
  {
    if k in m.entries then OMap(m.keys, m.entries[k := v])
    else OMap(m.keys + [k], m.entries[k := v])
  }

  /** Where a label is defined: the buffer offset and the 1-based source line. */
  datatype Label = Label(ofs: nat, line: nat)

  type LabelTable = OMap<Label>

  /** Label name to the buffer offsets that must receive its address, in the
      order they were recorded. */
  type RelocTable = OMap<seq<nat>>

  /** `relocs[name]` of the source's `defaultdict(list)`. */
  function SitesOf(relocs: RelocTable, name: string): seq<nat> {
    if name in relocs.entries then relocs.entries[name] else []
  }

  /** `relocs[name].append(site)`. */
  function AddSite(relocs: RelocTable, name: string, site: nat): (r: RelocTable)
    requires Valid(relocs)
    ensures Valid(r)
    ensures r.entries.Keys == relocs.entries.Keys + {name}
    ensures SitesOf(r, name) == SitesOf(relocs, name) + [site]
    ensures forall n :: n != name ==> SitesOf(r, n) == SitesOf(relocs, n)
    ensures relocs.keys <= r.keys
  {
    Put(relocs, name, SitesOf(relocs, name) + [site])
  }
}

=== FILE: text.dfy ===
/** Character classes and the handful of Python string operations the
    assembler uses (`rstrip`, `strip`, `partition`, `rpartition`, `split`,
    `casefold`, `isidentifier`), restricted to ASCII. */
module Text {
  import opened Wrappers

  /** Python's `str.isspace` on ASCII: space, \t \n \v \f \r and the
      separators 0x1c-0x1f. */
  predicate IsSpace(c: char) {
    var k := c as int;
    k == 32 || 9 <= k <= 13 || 28 <= k <= 31
  }

  predicate IsNewline(c: char) {
    c == '\r' || c == '\n'
  }

  predicate IsDigit(c: char) {
    '0' <= c <= '9'
  }

  predicate IsIdentStart(c: char) {
    'A' <= c <= 'Z' || 'a' <= c <= 'z' || c == '_'
  }

  predicate IsIdentPart(c: char) {
    IsIdentStart(c) || IsDigit(c)
  }

  /** `str.isidentifier`, ASCII only: `[A-Za-z_][A-Za-z0-9_]*`. */
  predicate IsIdentifier(s: string) {
    |s| > 0 && IsIdentStart(s[0]) && forall i :: 1 <= i < |s| ==> IsIdentPart(s[i])
  }

  predicate AllSpace(s: string) {
    forall i :: 0 <= i < |s| ==> IsSpace(s[i])
  }

  predicate NoSpace(s: string) {
    forall i :: 0 <= i < |s| ==> !IsSpace(s[i])
  }

  /** `s` contains no `//`. */
  predicate NoCommentMark(s: string) {
    forall k :: 0 <= k && k + 1 < |s| ==> !(s[k] == '/' && s[k + 1] == '/')
  }

  predicate EndsWith(s: string, suffix: string) {
    |suffix| <= |s| && s[|s| - |suffix|..] == suffix
  }

  function LowerChar(c: char): (r: char)
    ensures IsSpace(r) <==> IsSpace(c)
  {
    if 'A' <= c <= 'Z' then (c as int + 32) as char else c
  }

  /** `str.casefold`, ASCII only. */
  function Lower(s: string): (r: string)
    ensures |r| == |s|
    ensures forall i :: 0 <= i < |s| ==> r[i] == LowerChar(s[i])
  {
    if s == [] then [] else [LowerChar(s[0])] + Lower(s[1..])
  }

  /** `s.rstrip('\r\n')`: drop every trailing CR and LF. */
  function StripNewlines(s: string): (r: string)
    ensures |r| <= |s| && r == s[..|r|]
    ensures forall k :: |r| <= k < |s| ==> IsNewline(s[k])
    ensures r == [] || !IsNewline(r[|r| - 1])
    decreases |s|
  {
    if s != [] && IsNewline(s[|s| - 1]) then StripNewlines(s[..|s| - 1]) else s
  }

  /** `s.lstrip()`: the suffix of `s` after its leading whitespace. */
  function TrimStart(s: string): (r: string)
    ensures |r| <= |s|
    ensures AllSpace(s[..|s| - |r|])
    ensures r == [] || !IsSpace(r[0])
    decreases |s|
  {
    if s != [] && IsSpace(s[0]) then
      var t := s[1..];
      var r := TrimStart(t);
      assert s[..|s| - |r|] == [s[0]] + t[..|t| - |r|];
      r
    else
      s
  }

  /** `s.lstrip()` is the suffix of `s` of its own length. */
  lemma {:induction false} TrimStartSuffix(s: string)
    ensures TrimStart(s) == s[|s| - |TrimStart(s)|..]
    decreases |s|
  {
    if s != [] && IsSpace(s[0]) {
      var t := s[1..];
      TrimStartSuffix(t);
      assert s[|s| - |TrimStart(s)|..] == t[|t| - |TrimStart(t)|..];
    }
  }

  /** `s.rstrip()`: the prefix of `s` before its trailing whitespace. */
  function TrimEnd(s: string): (r: string)
    ensures |r| <= |s| && r == s[..|r|]
    ensures forall k :: |r| <= k < |s| ==> IsSpace(s[k])
    ensures r == [] || !IsSpace(r[|r| - 1])
    decreases |s|
  {
    if s != [] && IsSpace(s[|s| - 1]) then
      var r := TrimEnd(s[..|s| - 1]);
      assert s[|r|..] == s[..|s| - 1][|r|..] + [s[|s| - 1]];
      r
    else
      s
  }

  /** `s.strip()`: `s` without leading and trailing whitespace. */
  function Strip(s: string): (r: string)
    ensures r == [] || (!IsSpace(r[0]) && !IsSpace(r[|r| - 1]))
    ensures s != [] && !IsSpace(s[0]) && !IsSpace(s[|s| - 1]) ==> r == s
  {
    TrimEnd(TrimStart(s))
  }

  /** `s.strip()` is the slice of `s` between its leading and its trailing
      whitespace. */
  lemma StripSlice(s: string)
    ensures var a, r := |s| - |TrimStart(s)|, Strip(s);
      && a + |r| <= |s| && AllSpace(s[..a]) && r == s[a..a + |r|]
      && forall k :: a + |r| <= k < |s| ==> IsSpace(s[k])
  {
    var t := TrimStart(s);
    var a := |s| - |t|;
    var r := Strip(s);
    TrimStartSuffix(s);
    assert r == t[..|r|];
    assert t[..|r|] == s[a..a + |r|];
    forall k | a + |r| <= k < |s| ensures IsSpace(s[k]) {
      assert s[k] == t[k - a];
    }
  }

  /** A character absent from `s` is absent from `s.strip()`. */
  lemma StripKeepsOut(s: string, c: char)
    requires c !in s
    ensures c !in Strip(s)
  {
    var t := TrimStart(s);
    TrimStartSuffix(s);
    assert c !in t;
    assert c !in t[..|Strip(s)|];
  }

  /** Index of the first `//` in `s`, or `|s|` when there is none. */
  function CommentStart(s: string): (i: nat)
    ensures i <= |s|
    ensures i < |s| ==> i + 1 < |s| && s[i] == '/' && s[i + 1] == '/'
    ensures forall k :: 0 <= k < i && k + 1 < |s| ==> !(s[k] == '/' && s[k + 1] == '/')
    decreases |s|
  {
    if |s| < 2 then |s|
    else if s[0] == '/' && s[1] == '/' then 0
    else 1 + CommentStart(s[1..])
  }

  /** The first half of `s.partition('//')`: everything before the first `//`. */
  function StripComment(s: string): (r: string)
    ensures r <= s
    ensures forall k :: 0 <= k && k + 1 < |r| ==> !(r[k] == '/' && r[k + 1] == '/')
    ensures r == s || (|r| + 2 <= |s| && s[|r|..|r| + 2] == "//")
    ensures forall k :: 0 <= k < |r| && k + 1 < |s| ==> !(s[k] == '/' && s[k + 1] == '/')
  {
    s[..CommentStart(s)]
  }

  /** Index of the first occurrence of `c` in `s`. */
  function IndexOf(s: string, c: char): (r: Option<nat>)
    ensures r.None? <==> c !in s
    ensures r.Some? ==> r.value < |s| && s[r.value] == c && c !in s[..r.value]
    decreases |s|
  {
    if s == [] then None
    else if s[0] == c then Some(0)
    else match IndexOf(s[1..], c)
      case None => None
      case Some(i) =>
        assert s[..i + 1] == [s[0]] + s[1..][..i];
        Some(i + 1)
  }

  /** Index of the last occurrence of `c` in `s`. */
  function LastIndexOf(s: string, c: char): (r: Option<nat>)
    ensures r.None? <==> c !in s
    ensures r.Some? ==> r.value < |s| && s[r.value] == c && c !in s[r.value + 1..]
    decreases |s|
  {
    if s == [] then None
    else if s[|s| - 1] == c then Some(|s| - 1)
    else match LastIndexOf(s[..|s| - 1], c)
      case None => None
      case Some(i) =>
        assert s[i + 1..] == s[..|s| - 1][i + 1..] + [s[|s| - 1]];
        Some(i)
  }

  /** `s.rpartition(c)` without the separator: the text before and after the
      last `c`, or `("", s)` when `c` does not occur. */
  function RPartition(s: string, c: char): (r: (string, string))
    ensures c !in r.1
    ensures c in s ==> r.0 + [c] + r.1 == s
    ensures c !in s ==> r == ([], s)
  {
    match LastIndexOf(s, c)
    case None => ([], s)
    case Some(i) =>
      assert s[..i] + [c] + s[i + 1..] == s;
      (s[..i], s[i + 1..])
  }

  /** The pieces joined with `sep` between neighbours: `sep.join(pieces)`,
      the inverse of `Split`. */
  function Join(pieces: seq<string>, sep: char): string
    decreases |pieces|
  {
    if |pieces| == 0 then []
    else if |pieces| == 1 then pieces[0]
    else pieces[0] + [sep] + Join(pieces[1..], sep)
  }

  /** `s.split(sep)` for a one-character separator. */
  function Split(s: string, sep: char): (r: seq<string>)
    ensures |r| >= 1
    ensures forall i :: 0 <= i < |r| ==> sep !in r[i]
    ensures Join(r, sep) == s
    decreases |s|
  {
    match IndexOf(s, sep)
    case None => [s]
    case Some(i) =>
      var rest := Split(s[i + 1..], sep);
      assert s == s[..i] + [sep] + s[i + 1..];
      assert ([s[..i]] + rest)[1..] == rest;
      [s[..i]] + rest
  }

  /** Splitting a join gives back the pieces, provided no piece holds the
      separator. */
  lemma {:induction false} SplitJoin(pieces: seq<string>, sep: char)
    requires |pieces| >= 1
    requires forall i :: 0 <= i < |pieces| ==> sep !in pieces[i]
    ensures Split(Join(pieces, sep), sep) == pieces
    decreases |pieces|
  {
    var s := Join(pieces, sep);
    if |pieces| == 1 {
      assert IndexOf(s, sep).None?;
    } else {
      var p := pieces[0];
      var rest := Join(pieces[1..], sep);
      assert s == p + [sep] + rest;
      assert s[|p|] == sep;
      assert s[..|p|] == p;
      assert IndexOf(s, sep) == Some(|p|);
      assert s[|p| + 1..] == rest;
      SplitJoin(pieces[1..], sep);
      assert [p] + pieces[1..] == pieces;
    }
  }

  /** Length of the run of non-space characters at the start of `s`. */
  function WordLength(s: string): (n: nat)
    ensures n <= |s|
    ensures NoSpace(s[..n])
    ensures n < |s| ==> IsSpace(s[n])
    decreases |s|
  {
    if s == [] || IsSpace(s[0]) then 0
    else
      var n := WordLength(s[1..]);
      assert s[..n + 1] == [s[0]] + s[1..][..n];
      n + 1
  }

  /** `s.split()`: the maximal runs of non-space characters, in order. */
  function SplitWhitespace(s: string): (r: seq<string>)
    ensures forall i :: 0 <= i < |r| ==> r[i] != [] && NoSpace(r[i])
    ensures r == [] <==> AllSpace(s)
    decreases |s|
  {
    var t := TrimStart(s);
    if t == [] then
      assert s[..|s|] == s;
      []
    else
      var n := WordLength(t);
      var rest := SplitWhitespace(t[n..]);
      TrimStartSuffix(s);
      assert s[|s| - |t|] == t[0];
      var w := t[..n];
      assert w != [] && NoSpace(w);
      Cons(w, rest)
  }

  /** `[w] + rest`, keeping the facts about the words. */
  function Cons(w: string, rest: seq<string>): (r: seq<string>)
    requires w != [] && NoSpace(w)
    requires forall i :: 0 <= i < |rest| ==> rest[i] != [] && NoSpace(rest[i])
    ensures r != [] && r[0] == w && r[1..] == rest
    ensures forall i :: 0 <= i < |r| ==> r[i] != [] && NoSpace(r[i])
  {
    [w] + rest
  }

  /** Joining space-free words with single spaces and splitting on
      whitespace gives the words back. */
  lemma {:induction false} SplitWhitespaceJoin(words: seq<string>)
    requires forall i :: 0 <= i < |words| ==> words[i] != [] && NoSpace(words[i])
    ensures SplitWhitespace(Join(words, ' ')) == words
    decreases |words|
  {
    var s := Join(words, ' ');
    if |words| == 0 {
      assert SplitWhitespace([]) == [];
    } else if |words| == 1 {
      assert TrimStart(s) == s;
      assert WordLength(s) == |s| by {
        assert s + [] == s;
        WordLengthOfNoSpace(s, []);
      }
      assert s[..|s|] == s && s[|s|..] == [];
      assert SplitWhitespace([]) == [];
      var r := SplitWhitespace(s);
      assert r == Cons(s, []);
      assert r == [r[0]] + r[1..];
    } else {
      var w := words[0];
      var rest := Join(words[1..], ' ');
      assert s == w + (" " + rest);
      assert TrimStart(s) == s;
      WordLengthOfNoSpace(w, " " + rest);
      assert s[..|w|] == w;
      assert s[|w|..] == " " + rest;
      SplitWhitespaceJoin(words[1..]);
      SkipOneSpace(rest);
      var r := SplitWhitespace(s);
      assert r == Cons(w, words[1..]);
      assert r == [r[0]] + r[1..];
      assert [w] + words[1..] == words;
    }
  }

  lemma SkipOneSpace(x: string)
    ensures SplitWhitespace(" " + x) == SplitWhitespace(x)
  {
    assert (" " + x)[1..] == x;
    assert TrimStart(" " + x) == TrimStart(x);
  }

  /** A leading blank separates nothing. */
  lemma SkipLeadingSpace(x: string)
    requires x != [] && IsSpace(x[0])
    ensures SplitWhitespace(x) == SplitWhitespace(x[1..])
  {
    assert TrimStart(x) == TrimStart(x[1..]);
  }

  /** Text starting with a non-blank splits into its first word and the
      words of what follows it. */
  lemma SplitWhitespaceUnfold(x: string)
    requires x != [] && !IsSpace(x[0])
    ensures 0 < WordLength(x)
    ensures SplitWhitespace(x) == [x[..WordLength(x)]] + SplitWhitespace(x[WordLength(x)..])
  {
    assert TrimStart(x) == x;
  }

  /** A non-empty blank-free word splits into itself. */
  lemma SplitWhitespaceWord(w: string)
    requires w != [] && NoSpace(w)
    ensures SplitWhitespace(w) == [w]
  {
    assert w + [] == w;
    WordLengthOfNoSpace(w, []);
    SplitWhitespaceUnfold(w);
    assert w[..|w|] == w && w[|w|..] == [];
    assert SplitWhitespace([]) == [];
  }

  /** A blank splits the text in two: the words of `a`, then those of `b`.
      Together with `SplitWhitespaceWord` this pins `split()` down on every
      input. */
  lemma {:induction false} SplitWhitespaceAt(a: string, c: char, b: string)
    requires IsSpace(c)
    ensures SplitWhitespace(a + [c] + b) == SplitWhitespace(a) + SplitWhitespace(b)
    decreases |a|
  {
    if a == [] {
      var s := a + [c] + b;
      assert s[1..] == b;
      SkipLeadingSpace(s);
      assert SplitWhitespace(a) == [];
    } else if IsSpace(a[0]) {
      SplitWhitespaceAt(a[1..], c, b);
      SpaceFirst(a, c, b);
    } else {
      var n := WordLength(a);
      SplitWhitespaceUnfold(a);
      SplitWhitespaceAt(a[n..], c, b);
      WordFirst(a, c, b);
    }
  }

  /** The step of `SplitWhitespaceAt` for a leading blank. */
  lemma SpaceFirst(a: string, c: char, b: string)
    requires a != [] && IsSpace(a[0])
    requires SplitWhitespace(a[1..] + [c] + b) == SplitWhitespace(a[1..]) + SplitWhitespace(b)
    ensures SplitWhitespace(a + [c] + b) == SplitWhitespace(a) + SplitWhitespace(b)
  {
    var s := a + [c] + b;
    assert s[0] == a[0] && s[1..] == a[1..] + [c] + b;
    SkipLeadingSpace(s);
    SkipLeadingSpace(a);
  }

  /** The step of `SplitWhitespaceAt` for a leading word. */
  lemma WordFirst(a: string, c: char, b: string)
    requires IsSpace(c) && a != [] && !IsSpace(a[0])
    requires SplitWhitespace(a[WordLength(a)..] + [c] + b) ==
      SplitWhitespace(a[WordLength(a)..]) + SplitWhitespace(b)
    ensures SplitWhitespace(a + [c] + b) == SplitWhitespace(a) + SplitWhitespace(b)
  {
    FirstWordKept(a, c, b);
    SplitWhitespaceUnfold(a);
    ConsAssoc(SplitWhitespace(a + [c] + b), SplitWhitespace(a), a[..WordLength(a)],
      SplitWhitespace(a[WordLength(a)..]), SplitWhitespace(b));
  }

  /** A first word followed by the words of two parts: the first word and
      the first part's words, then the second part's words. */
  lemma ConsAssoc<T>(s: seq<T>, t: seq<T>, w: T, x: seq<T>, y: seq<T>)
    requires s == [w] + (x + y) && t == [w] + x
    ensures s == t + y
  {
    assert [w] + (x + y) == ([w] + x) + y;
  }

  /** A blank after `a` leaves its first word as it is. */
  lemma FirstWordKept(a: string, c: char, b: string)
    requires IsSpace(c) && a != [] && !IsSpace(a[0])
    ensures SplitWhitespace(a + [c] + b) ==
      [a[..WordLength(a)]] + SplitWhitespace(a[WordLength(a)..] + [c] + b)
  {
    var n := WordLength(a);
    var s := a + [c] + b;
    var w, tail := a[..n], a[n..] + [c] + b;
    assert s == w + tail by { assert a == w + a[n..]; }
    assert tail[0] == (if n < |a| then a[n] else c);
    WordLengthOfNoSpace(w, tail);
    assert s[0] == a[0];
    SplitWhitespaceUnfold(s);
    assert s[..n] == w && s[n..] == tail;
  }

  /** Every character of every word of `s.split()` occurs in `s`. */
  lemma SplitWhitespaceChars(s: string, c: char)
    requires c !in s
    ensures forall i :: 0 <= i < |SplitWhitespace(s)| ==> c !in SplitWhitespace(s)[i]
    decreases |s|
  {
    var t := TrimStart(s);
    if t != [] {
      var n := WordLength(t);
      assert c !in t by { TrimStartSuffix(s); }
      assert c !in t[..n] && c !in t[n..];
      SplitWhitespaceChars(t[n..], c);
    }
  }

  lemma WordLengthOfNoSpace(w: string, tail: string)
    requires NoSpace(w)
    requires tail == [] || IsSpace(tail[0])
    ensures WordLength(w + tail) == |w|
    decreases |w|
  {
    if w != [] {
      assert (w + tail)[1..] == w[1..] + tail;
      WordLengthOfNoSpace(w[1..], tail);
    }
  }

  lemma JoinStartsWithFirst(pieces: seq<string>, sep: char)
    requires |pieces| >= 1 && pieces[0] != []
    ensures Join(pieces, sep) != [] && Join(pieces, sep)[0] == pieces[0][0]
  {
  }

  lemma JoinEndsWithLast(pieces: seq<string>, sep: char)
    requires |pieces| >= 1 && pieces[|pieces| - 1] != []
    ensures Join(pieces, sep) != []
    ensures Join(pieces, sep)[|Join(pieces, sep)| - 1] == pieces[|pieces| - 1][|pieces[|pieces| - 1]| - 1]
    decreases |pieces|
  {
    if |pieces| > 1 {
      JoinEndsWithLast(pieces[1..], sep);
    }
  }

  /** A character that is neither the separator nor in any piece is not in
      their join. */
  lemma JoinKeepsOut(pieces: seq<string>, sep: char, c: char)
    requires c != sep
    requires forall i :: 0 <= i < |pieces| ==> c !in pieces[i]
    ensures c !in Join(pieces, sep)
    decreases |pieces|
  {
    if |pieces| > 1 {
      JoinKeepsOut(pieces[1..], sep, c);
    }
  }

  /** Text with no space at either end is its own `strip()`. */
  lemma StripUnchanged(s: string)
    requires s == [] || (!IsSpace(s[0]) && !IsSpace(s[|s| - 1]))
    ensures Strip(s) == s
  {
  }

  /** The separator occurrence that leaves no separator after it is unique. */
  lemma LastSeparatorUnique(a: string, b: string, x: string, y: string, c: char)
    requires a + [c] + b == x + [c] + y
    requires c !in b && c !in y
    ensures a == x && b == y
  {
    var s := a + [c] + b;
    assert s[|a|] == c && s[|x|] == c;
    assert forall k :: |a| < k < |s| ==> s[k] == b[k - |a| - 1];
    assert forall k :: |x| < k < |s| ==> s[k] == y[k - |x| - 1];
    assert |a| == |x|;
    assert b == s[|s| - |b|..] == y;
    assert a == s[..|a|] == x;
  }

  /** Trailing CR/LF stripping only looks at the end of the text. */
  lemma StripNewlinesAppend(a: string, b: string)
    requires a != [] && !IsNewline(a[|a| - 1])
    ensures StripNewlines(a + b) == a + StripNewlines(b)
    decreases |b|
  {
    if b != [] && IsNewline(b[|b| - 1]) {
      assert (a + b)[..|a + b| - 1] == a + b[..|b| - 1];
      StripNewlinesAppend(a, b[..|b| - 1]);
    } else if b == [] {
      assert a + b == a;
    }
  }
}

=== FILE: wrappers.dfy ===
/** Optional values and success/failure results, used instead of the
    exceptions and KeyErrors of the assembler. */
module Wrappers {

  datatype Option<+T> = None | Some(value: T)

  datatype Result<+T, +E> = Success(value: T) | Failure(error: E)
}
